=== FILE: README.md ===
# Pedestrian rulesets in a corridor — a Dafny model

The simulation moves two streams of pedestrians through a corridor of width `W`. One stream walks left and the other walks right. Each pedestrian is a disc-shaped particle with a position, a velocity, a personal-space radius in `[R_MIN, R_MAX]` and a fixed exit direction (`goesLeft`).

One tick applies a *ruleset* to the particle list. The model covers four rulesets:

- **Naive**: pure Euler drift.
- **CPM** (contractile particle model): a particle touching another particle or a wall contracts to `R_MIN` and escapes at `V_D`. A free particle re-expands towards `R_MAX` and walks along its desired heading, at a speed that grows with its radius.
- **ACPM** (anisotropic CPM): only *front colliders* count as contacts, plus walls closer than `R_MIN`. A particle in contact escapes along the sum of the pushes away from all of them, plus its desired heading.
- **AACPM** (avoidance ACPM): contact is decided as in ACPM. A free particle also steers around its two nearest particles ahead and away from the nearer wall.

Naive, CPM and ACPM update the list in place, one particle after another. Each update therefore reads the already-updated state of the particles before it. AACPM reads only its input list, returns a new one, and uses the constant time step `DT`.

Everything is modelled over exact reals. `sqrt`, `atan2`, `sin`, `cos`, `exp`, `pow` and `acos` are uninterpreted functions bundled in a `MathLib` value (module `Transcendental`). A lemma that relies on a fact about one of them requires a named law predicate: `SqrtLaws`, `TrigLaws`, `ExpLaws`, `PowLaws` or `Atan2Laws`.

Java reference identity (`p == other`) is modelled as list-index identity.

## Modules

- `reals.dfy` `RealArith`: small facts about real multiplication and division.
- `transcendental.dfy` `Transcendental`: the `MathLib` bundle and its laws.
- `parameters.dfy` `Parameters`: the constants.
- `optional.dfy` `Optional`: `Option`, for Java's NaN and null outcomes.
- `vector2d.dfy` `Vectors`: `Vector2D` and its algebra.
- `particle.dfy` `Particles`: the particle record, the desired heading, the Euler step.
- `contact.dfy` `Contact`: the front-collider test with its shoulder lines.
- `ordering.dfy` `Ordering`: the stable sort by distance.
- `neighbours.dfy` `Neighbours`: front colliders, the two nearest particles ahead, sums over them.
- `motion.dfy` `Motion`: radius growth, free speed, contact velocity.
- `naive.dfy`, `cpm.dfy`, `acpm.dfy`, `aacpm.dfy`: one module per ruleset.
- `sweep.dfy` `InPlace`: the in-place for-loop shared by Naive, CPM and ACPM.
- `scenarios.dfy` `Scenarios`: concrete situations worked through the model.

## Model

| member | source | states |
|---|---|---|
| Parameters.RadiusBoundsWellFormed | src/main/java/ss/Parameters.java:7-8 | 0 < R_MIN < R_MAX, so the speed law's divisor R_MAX - R_MIN is never zero |
| Parameters.GrowthStepPositive | src/main/java/ss/Parameters.java:5-16 | DT and TAU are positive, so one free step grows the radius by a strictly positive amount |
| Parameters.CorridorFitsMaxRadius | src/main/java/ss/Parameters.java:8-13 | a particle of maximal radius fits between the walls (2 R_MAX < W) |
| Parameters.DecayLengthsPositive | src/main/java/ss/Parameters.java:18-22 | the amplitudes and decay lengths of both avoidance terms are positive |
| Vectors.Vector2D.Add | src/main/java/ss/model/Vector2D.java:11-13 | the componentwise sum; its laws are AddCommutative and AddSubtractRoundTrip |
| Vectors.Vector2D.Subtract | src/main/java/ss/model/Vector2D.java:15-17 | the componentwise difference; AddSubtractRoundTrip states that it undoes Add |
| Vectors.Vector2D.Scale | src/main/java/ss/model/Vector2D.java:19-21 | each component times s; ScaleByOneAndZero and ScaleSquaredLength state its laws |
| Vectors.Vector2D.Dot | src/main/java/ss/model/Vector2D.java:23-25 | x1 x2 + y1 y2; DotCrossSymmetries, SquaredLengthZero and Lagrange state its laws |
| Vectors.Vector2D.Cross | src/main/java/ss/model/Vector2D.java:27-29 | x1 y2 - y1 x2; DotCrossSymmetries, DotCrossBothZero and Lagrange state its laws |
| Vectors.Vector2D.Magnitude | src/main/java/ss/model/Vector2D.java:31-33 | sqrt(x^2 + y^2) through the uninterpreted sqrt; MagnitudeLaws states its laws |
| Vectors.AddSubtractRoundTrip | src/main/java/ss/model/Vector2D.java:11-17 | subtracting w undoes adding w, and the other way round |
| Vectors.AddCommutative | src/main/java/ss/model/Vector2D.java:11-13 | vector addition is commutative |
| Vectors.ScaleByOneAndZero | src/main/java/ss/model/Vector2D.java:19-21 | scale(1) is the identity and scale(0) gives the zero vector |
| Vectors.ScaleSquaredLength | src/main/java/ss/model/Vector2D.java:19-25 | scaling by s multiplies the squared length by s^2 |
| Vectors.DotCrossSymmetries | src/main/java/ss/model/Vector2D.java:23-29 | dot is symmetric, cross is antisymmetric, and v x v = 0 |
| Vectors.Lagrange | src/main/java/ss/model/Vector2D.java:23-29 | \|v\|^2 \|w\|^2 = (v.w)^2 + (v x w)^2 |
| Vectors.SquaredLengthZero | src/main/java/ss/model/Vector2D.java:23-25 | v.v is non-negative, and zero exactly for the zero vector |
| Vectors.DotCrossBothZero | src/main/java/ss/model/Vector2D.java:23-29 | dot and cross both vanish exactly when one of the vectors is zero |
| Vectors.MagnitudeLaws | src/main/java/ss/model/Vector2D.java:31-33 | the magnitude is non-negative, squares to v.v, and is zero only for the zero vector |
| Vectors.Vector2D.Normalize | src/main/java/ss/model/Vector2D.java:35-39 | normalize returns the zero vector for the zero vector without dividing, and its result is always parallel to the input |
| Vectors.NormalizeUnit | src/main/java/ss/model/Vector2D.java:35-39 | a non-zero vector normalizes to a unit vector pointing the same way, which scaled by the magnitude gives the vector back; only zero normalizes to zero |
| Vectors.Vector2D.DistanceTo | src/main/java/ss/model/Vector2D.java:41-43 | the magnitude of the difference; DistanceLaws states its laws |
| Vectors.DistanceLaws | src/main/java/ss/model/Vector2D.java:41-43 | distance is symmetric and non-negative, squares to the squared difference, and is zero only between equal points |
| Vectors.Vector2D.Rotate | src/main/java/ss/model/Vector2D.java:47-51 | (cos a x - sin a y, sin a x + cos a y); RotateIsometry, RotateByZero and RotateInverse state its laws |
| Vectors.RotateIsometry | src/main/java/ss/model/Vector2D.java:47-51 | rotation preserves squared length, given cos^2 + sin^2 = 1 |
| Vectors.RotateByZero | src/main/java/ss/model/Vector2D.java:47-51 | rotating by 0 is the identity, given cos 0 = 1 and sin 0 = 0 |
| Vectors.RotateInverse | src/main/java/ss/model/Vector2D.java:47-51 | rotating by -a undoes rotating by a |
| Vectors.Vector2D.Perpendicular | src/main/java/ss/model/Vector2D.java:53-55 | the perpendicular is orthogonal to v, has v's squared length, and v x perp = \|v\|^2 (a counter-clockwise quarter turn) |
| Vectors.PerpendicularTwice | src/main/java/ss/model/Vector2D.java:53-55 | two quarter turns give -v |
| Vectors.ClampUnit | src/main/java/ss/model/Vector2D.java:61 | the clamp lands in [-1, 1], leaves values inside it alone, and maps values outside to the nearer end |
| Vectors.Vector2D.AngleWith | src/main/java/ss/model/Vector2D.java:57-63 | when defined, the angle is acos of a value in [-1, 1] |
| Vectors.AngleWithClampInactive | src/main/java/ss/model/Vector2D.java:57-63 | the angle is undefined (NaN in Java) exactly when a vector is zero; otherwise the clamp never changes the cosine (Cauchy-Schwarz) |
| Vectors.Vector2D.SignedAngleTo | src/main/java/ss/rules/AACPM.java:91 | atan2(v x other, v . other), the angle from v to other; SignedAngleWithinQuarter states when it is within a quarter turn |
| Vectors.SignedAngleWithinQuarter | src/main/java/ss/rules/AACPM.java:89-93 | \|atan2(cross, dot)\| <= pi/2 iff dot >= 0; the strict version holds iff dot > 0 or a vector is zero |
| Particles.Desired | src/main/java/ss/rules/ACPM.java:47 | the desired heading is the unit vector along -x for particles going left and along +x otherwise |
| Particles.Advance | src/main/java/ss/rules/CPM.java:45 | the Euler step moves the position by exactly velocity * dt, and not at all for dt = 0 |
| Contact.Overlap | src/main/java/ss/model/Contact.java:7-10 | \|rij\| < ri + rj; OverlapPolynomial states it without the square root |
| Contact.AngleBetween | src/main/java/ss/model/Contact.java:27-29 | atan2(v2 x v1, v2 . v1); FrontColliderPolynomial states the angle test through the sign of v2 . v1 |
| Contact.IsFrontCollider | src/main/java/ss/model/Contact.java:6-25 | a front collider overlaps; an overlapping j is one whenever i is contracted to R_MIN; otherwise a front collider passes the shoulder-line test |
| Contact.OverlapPolynomial | src/main/java/ss/model/Contact.java:7-11 | overlap holds iff the radius sum is positive and \|rij\|^2 < (ri + rj)^2 |
| Contact.FrontColliderPolynomial | src/main/java/ss/model/Contact.java:6-29 | isFrontCollider without roots or angles: overlap, and either i is contracted or vi . rij >= 0 and the band test passes |
| Contact.ZeroVelocityCollidesOnOverlap | src/main/java/ss/model/Contact.java:19-24 | a particle at rest has every overlapping particle as a front collider |
| Contact.Shoulders | src/main/java/ss/model/Contact.java:32-36 | for a zero heading both shoulder points coincide with the position |
| Contact.ShoulderGeometry | src/main/java/ss/model/Contact.java:32-36 | for a moving particle the heading is a unit vector, and the shoulders lie R_MIN from the centre on opposite sides (left - centre = centre - right), on the line through the centre perpendicular to the heading |
| Contact.LineIntersection | src/main/java/ss/model/Contact.java:31-40 | a particle at rest always passes the band test |
| Contact.LineIntersectionMeaning | src/main/java/ss/model/Contact.java:31-40 | the band test passes iff the particle is at rest, or the infinite line along the heading through one of its shoulders reaches j's disc |
| Contact.LineIntersectsCircle | src/main/java/ss/model/Contact.java:42-51 | a zero direction always gives a hit |
| Contact.LineIntersectsCircleMeaning | src/main/java/ss/model/Contact.java:42-51 | b^2 - 4ac >= 0 iff the direction is zero or some point p + s dir of the line lies in the closed disc |
| Contact.PointGivesHit | src/main/java/ss/model/Contact.java:42-51 | a line point inside the disc makes the discriminant non-negative |
| Contact.HitGivesPoint | src/main/java/ss/model/Contact.java:42-51 | a non-negative discriminant with a non-zero direction yields a line point inside the disc (the vertex -b / 2a) |
| Ordering.Insert | src/main/java/ss/rules/ACPM.java:62 | insertion adds exactly the one element: length + 1, same multiset plus x |
| Ordering.InsertAscending | src/main/java/ss/rules/ACPM.java:62 | inserting into a list sorted by key keeps it sorted |
| Ordering.InsertStable | src/main/java/ss/rules/ACPM.java:62 | inserting an element of a smaller index keeps the list ordered by key and then by index |
| Ordering.SortByKey | src/main/java/ss/rules/ACPM.java:62 | the sort is a permutation of its input |
| Ordering.SortByKeySorted | src/main/java/ss/rules/ACPM.java:62 | the result is ascending by key, and stable: equal keys keep their list order |
| Neighbours.Candidates | src/main/java/ss/rules/ACPM.java:58-60 | the filter keeps exactly the other particles that qualify, in list order, never p itself |
| Neighbours.FrontCollidersOf | src/main/java/ss/rules/ACPM.java:57-64 | every entry is some particle j != k tagged with its index and its distance to k as key, and j is listed iff j != k and j is a front collider of particle k; FrontCollidersSorted's strict order rules out duplicates |
| Neighbours.FrontCollidersSorted | src/main/java/ss/rules/ACPM.java:57-64 | the front colliders come nearest first, ties in list order |
| Neighbours.TwoNearestFront | src/main/java/ss/rules/AACPM.java:84-97 | at most two particles, never p, each in the closed half-plane ahead of p's velocity |
| Neighbours.TwoNearestFrontSelection | src/main/java/ss/rules/AACPM.java:84-97 | the selection is nearest first; with fewer than two it holds every qualifying particle, and no qualifying particle left out is nearer than one chosen |
| Neighbours.SumOf | src/main/java/ss/rules/ACPM.java:20-24 | the left-to-right accumulation from (0, 0) over a list; SumOfAppend, SumOfRemove and SumOfPermutation state its laws |
| Neighbours.SumOfAppend | src/main/java/ss/rules/ACPM.java:20-24 | the accumulation over a concatenation is the sum of the two accumulations |
| Neighbours.SumOfRemove | src/main/java/ss/rules/ACPM.java:20-24 | any one term can be taken out of the accumulation and added last |
| Neighbours.SumOfPermutation | src/main/java/ss/rules/ACPM.java:20-24 | over exact reals the accumulated sum does not depend on the order of the terms |
| Motion.GrownRadius | src/main/java/ss/rules/CPM.java:32 | the grown radius is the smaller of R_MAX and radius + R_MAX * dt / TAU; it never falls below R_MIN for dt >= 0, and strictly grows below R_MAX for dt > 0 |
| Motion.GrownRadiusInRange | src/main/java/ss/rules/CPM.java:32 | growth by a non-negative step keeps a radius in [R_MIN, R_MAX] |
| Motion.FreeSpeed | src/main/java/ss/rules/CPM.java:34 | V_D ((r - R_MIN) / (R_MAX - R_MIN))^BETA through the uninterpreted pow; FreeSpeedSign states its sign |
| Motion.FreeSpeedSign | src/main/java/ss/rules/CPM.java:34 | the free speed is non-negative from R_MIN up and positive above it |
| Motion.HorizontalVelocity | src/main/java/ss/rules/CPM.java:35 | the free velocity is horizontal with the given speed, and for a positive speed points left exactly when the particle goes left |
| Motion.ContactVelocity | src/main/java/ss/rules/ACPM.java:46-49 | normalize(direction) * V_D, which is zero for a zero direction; ContactVelocityLaws states the rest |
| Motion.AlongHeading | src/main/java/ss/rules/AACPM.java:54-58 | a normalised heading scaled by a speed is zero for a zero heading; otherwise it is parallel to the heading (zero cross product), has that speed and, for a positive speed, a positive component along the heading |
| Motion.ContactVelocityLaws | src/main/java/ss/rules/ACPM.java:46-49 | the contact velocity is zero exactly for a zero direction; otherwise it is parallel to the direction (zero cross product) with speed V_D and a positive component along it |
| Motion.Push | src/main/java/ss/rules/CPM.java:20 | the escape direction normalize(p - other); CpmRuleset.FirstContactDecides and AcpmRuleset.RepulsionIgnoresOrder state how it is used |
| NaiveRuleset.Next | src/main/java/ss/rules/Naive.java:11-15 | only the position changes, by velocity * dt; for dt = 0 nothing changes |
| CpmRuleset.Interacting | src/main/java/ss/rules/CPM.java:50-52 | the centre distance is less than the radius sum; InteractingSymmetric and InteractingPolynomial state its laws |
| CpmRuleset.InteractingSymmetric | src/main/java/ss/rules/CPM.java:50-52 | interacting(a, b) iff interacting(b, a) |
| CpmRuleset.InteractingPolynomial | src/main/java/ss/rules/CPM.java:50-52 | interaction compares the squared centre distance with the squared radius sum |
| CpmRuleset.FirstInteracting | src/main/java/ss/rules/CPM.java:16-23 | the scan finds an interacting particle other than p, with none before it; it finds nothing iff no other particle interacts |
| CpmRuleset.WallDistance | src/main/java/ss/rules/CPM.java:25 | the distance to the nearer wall is at most both wall distances and equals one of them |
| CpmRuleset.Escape | src/main/java/ss/rules/CPM.java:16-29 | there is no escape direction iff no wall lies within the radius and no other particle interacts |
| CpmRuleset.Next | src/main/java/ss/rules/CPM.java:16-45 | the id and exit are kept, and the position moves by the new velocity * dt |
| CpmRuleset.WallOverride | src/main/java/ss/rules/CPM.java:25-42 | within its radius of a wall a particle contracts to R_MIN and moves at (0, V_D) if y < radius, else (0, -V_D), whatever particles it touches |
| CpmRuleset.FirstContactDecides | src/main/java/ss/rules/CPM.java:16-42 | away from the walls the first interacting particle in list order, and only it, sets the direction: normalize(p - other) * V_D, radius R_MIN |
| CpmRuleset.FreeMotion | src/main/java/ss/rules/CPM.java:31-36 | a free particle takes the grown radius and a horizontal velocity at the free speed, negative x exactly when it goes left, given the pow laws, dt > 0 and a radius of at least R_MIN |
| CpmRuleset.ContactMotion | src/main/java/ss/rules/CPM.java:37-42 | in contact the radius is R_MIN and, for a non-zero direction, the speed is V_D |
| CpmRuleset.NextRadiusInRange | src/main/java/ss/rules/CPM.java:31-42 | for dt >= 0 a radius in [R_MIN, R_MAX] stays there |
| AcpmRuleset.WithWalls | src/main/java/ss/rules/ACPM.java:26-36 | the wall terms add (0, -1) within R_MIN of the top and (0, 1) within R_MIN of the bottom, never both, and leave x alone |
| AcpmRuleset.Repulsion | src/main/java/ss/rules/ACPM.java:19-36 | the pushes from the front colliders, nearest first, then the wall terms; RepulsionIgnoresOrder states that the order does not matter |
| AcpmRuleset.InContact | src/main/java/ss/rules/ACPM.java:16-36 | the contact flag of the loop; InContactIff states exactly when it is set |
| AcpmRuleset.Next | src/main/java/ss/rules/ACPM.java:14-55 | the id and exit are kept, and the position moves by the new velocity * dt |
| AcpmRuleset.InContactIff | src/main/java/ss/rules/ACPM.java:19-36 | in contact iff some other particle is a front collider, or W - y < R_MIN, or y < R_MIN |
| AcpmRuleset.RepulsionIgnoresOrder | src/main/java/ss/rules/ACPM.java:19-24 | summing the pushes in list order instead of nearest first gives the same repulsion |
| AcpmRuleset.ContactSpeed | src/main/java/ss/rules/ACPM.java:44-50 | in contact the particle moves parallel to repulsion + desired at exactly V_D, on its side, or stands still when that sum is zero |
| AcpmRuleset.FreeMotion | src/main/java/ss/rules/ACPM.java:38-43 | a free particle takes the grown radius and a horizontal velocity at the free speed, towards its exit (negative x exactly when it goes left), given the pow laws, dt > 0 and a radius of at least R_MIN |
| AcpmRuleset.NextRadiusInRange | src/main/java/ss/rules/ACPM.java:38-50 | for dt >= 0 a radius in [R_MIN, R_MAX] stays there |
| InPlace.NextOf | src/main/java/ss/rules/CPM.java:12-47 | each ruleset's per-particle update keeps id and exit, and keeps the radius in range for dt >= 0 |
| InPlace.StepOf | src/main/java/ss/rules/ACPM.java:15-54 | the chosen ruleset is defined on every index and keeps agents, and keeps radii in range for dt >= 0 |
| InPlace.Sweep | src/main/java/ss/rules/CPM.java:12-47 | the list keeps its length (and its agents when the step does); particles the loop has not reached are untouched |
| InPlace.UpdateParticles | src/main/java/ss/rules/CPM.java:11-48 | the for-loop computes the full sweep |
| InPlace.SweepSettled | src/main/java/ss/rules/CPM.java:12-47 | in place: particle k's final state is its update computed from the list in which exactly particles 0..k-1 were already updated |
| InPlace.SweepRadiiInRange | src/main/java/ss/rules/ACPM.java:38-50 | when the step keeps radii in [R_MIN, R_MAX], so does the sweep |
| InPlace.NaiveSweepPointwise | src/main/java/ss/rules/Naive.java:12-14 | under Naive each particle ends as its own Euler step, independent of the others and of list order |
| InPlace.NaiveStandStill | src/main/java/ss/rules/Naive.java:13 | Naive with dt = 0 leaves the list unchanged |
| AacpmRuleset.Signum | src/main/java/ss/rules/AACPM.java:117 | signum is 1, -1 or 0 exactly for positive, negative and zero arguments |
| AacpmRuleset.RotationAngle | src/main/java/ss/rules/AACPM.java:115-117 | -signum(alpha) \|\|alpha\| - pi/2\|; RotationAngleLaws states its sign and size |
| AacpmRuleset.RotationAngleLaws | src/main/java/ss/rules/AACPM.java:113-118 | the rotation has the sign opposite to alpha, magnitude \|\|alpha\| - pi/2\|, is zero iff alpha is 0 or a quarter turn, and is at most pi/2 for \|alpha\| <= pi |
| AacpmRuleset.CollisionRotationBounded | src/main/java/ss/rules/AACPM.java:113-118 | for any alpha atan2 produces, the rotation is at most a quarter turn |
| AacpmRuleset.ScaledUnit | src/main/java/ss/rules/AACPM.java:118-121 | a unit vector scaled by a positive weight is non-zero with the weight as length |
| AacpmRuleset.CollisionVector | src/main/java/ss/rules/AACPM.java:100-122 | zero when the signed angle from i's velocity to i - j is under a quarter turn; otherwise the unit vector from j to i, rotated by RotationAngle and scaled by A_P exp(-\|i - j\| / B_P); CollisionVectorLaws and CollisionVectorLength state its laws |
| AacpmRuleset.CollisionVectorVanishes | src/main/java/ss/rules/AACPM.java:106-109 | the collision vector is zero when vi . (i - j) > 0 or either vector is zero |
| AacpmRuleset.CollisionVectorLength | src/main/java/ss/rules/AACPM.java:111-121 | otherwise it is non-zero with length A_P * exp(-\|i - j\| / B_P) |
| AacpmRuleset.CollisionVectorLaws | src/main/java/ss/rules/AACPM.java:100-122 | the collision vector vanishes iff vi . (i - j) > 0 or either vector is zero |
| AacpmRuleset.WallAvoidance | src/main/java/ss/rules/AACPM.java:124-145 | the wall avoidance is vertical |
| AacpmRuleset.WallTerm | src/main/java/ss/rules/AACPM.java:131-135 | a vertical direction gives a vertical push, and a zero direction gives no push |
| AacpmRuleset.VerticalUnit | src/main/java/ss/rules/AACPM.java:132 | normalizing a vertical vector keeps the sign of its y component |
| AacpmRuleset.WallAvoidanceFromBottom | src/main/java/ss/rules/AACPM.java:130-135 | for 0 < y < W - y the avoidance points up |
| AacpmRuleset.WallAvoidanceFromTop | src/main/java/ss/rules/AACPM.java:136-142 | for W - y <= y < W the avoidance points down |
| AacpmRuleset.WallAvoidanceOnBottomWall | src/main/java/ss/rules/AACPM.java:130-135 | on the bottom wall (y = 0) the avoidance is zero, because normalize(0, 0) = (0, 0) |
| AacpmRuleset.Avoidance | src/main/java/ss/rules/AACPM.java:43-49 | the collision vectors of the two nearest particles ahead plus the wall avoidance; WallAvoidanceFromBottom and WallAvoidanceFromTop state the wall part |
| AacpmRuleset.FreeVelocity | src/main/java/ss/rules/AACPM.java:53-58 | normalize(avoidance + desired) scaled by the free speed; FreeMotionSpeed states its speed and direction |
| AacpmRuleset.Next | src/main/java/ss/rules/AACPM.java:19-67 | the id and exit are kept, and the position moves by the new velocity * DT |
| AacpmRuleset.NextRadiusInRange | src/main/java/ss/rules/AACPM.java:53-60 | a radius in [R_MIN, R_MAX] stays there |
| AacpmRuleset.ContactAsAcpm | src/main/java/ss/rules/AACPM.java:26-64 | in contact, AACPM's update equals ACPM's with dt = DT |
| AacpmRuleset.FreeMotionSpeed | src/main/java/ss/rules/AACPM.java:53-58 | a free particle stands still when avoidance + desired is zero; otherwise it moves parallel to avoidance + desired at the free speed of its grown radius, on its side whenever that speed is positive |
| AacpmRuleset.UpdateParticles | src/main/java/ss/rules/AACPM.java:16-71 | a new list of the same length and order; entry k is particle k's update read from the unmodified input; agents and radius bounds carry over |
| Scenarios.CpmHeadOnAtBottomWall | src/main/java/ss/rules/CPM.java:25-42 | after one CPM tick both particles move straight up at V_D with radius R_MIN |
| Scenarios.LoneRepulsionNearBottomWall | src/main/java/ss/rules/ACPM.java:26-36 | a lone particle with y < R_MIN has repulsion (0, 1) |
| Scenarios.NormalizeKeepsUp | src/main/java/ss/model/Vector2D.java:35-39 | normalizing keeps a positive y component positive |
| Scenarios.ContactVelocityUp | src/main/java/ss/rules/ACPM.java:46-49 | a contact direction with positive y gives a velocity with positive y |
| Scenarios.AcpmLoneParticleNearBottomWall | src/main/java/ss/rules/ACPM.java:33-50 | a lone particle with y < R_MIN is in contact under ACPM and moves off the wall (velocity.y > 0) |
| Scenarios.AacpmLoneParticleNearBottomWall | src/main/java/ss/rules/AACPM.java:37-63 | the same lone particle also moves off the wall under AACPM |

## Left out

- Floating point is not modelled: IEEE-754 rounding, NaN, `-0.0` and overflow are outside the model. Computations are over exact reals.
- The values of `Math.sqrt`, `atan2`, `sin`, `cos`, `exp`, `pow`, `acos` and `PI` are not modelled. They are parameters, and lemmas assume only the stated laws.
- `Vectors.Vector2D.AngleWith`: Java returns NaN (0/0) when a vector is zero; the model returns `None`.
- `System.out.println(avoidance)` (src/main/java/ss/rules/AACPM.java:51) is console output with no effect on state.
- `Vector2D.toString` is formatting only.
- `Particle` and the `Ruleset` interface are not part of this model. `Particle` is rebuilt as a record from the fields the rulesets use.
- `Main.java` and the `Simulation` driver are not part of this model. They hold the run loop over inlet rates and the file output.
- The Python scripts `observables.py` and `animation.py` are not part of this model. They are plotting and post-processing.
- `L` and `PARTICLES_PER_SIDE` are declared but not used by the modelled rulesets.
- `Motion.HorizontalVelocity`: states the velocity's direction, sign and squared speed rather than equality with the desired heading scaled by the speed. That equality holds by definition but is expensive for the solver.
- `CpmRuleset.ContactMotion`: the speed V_D is stated only for a non-zero escape direction. `normalize` can return zero for two coincident particles, and then the velocity is zero.
- `InPlace.UpdateParticles`: the agent and radius invariants are not restated on the method. They follow from `InPlace.Sweep` and `InPlace.SweepRadiiInRange`.
- Java's `List.sort` and `Stream.sorted` are merge sorts. The model uses a stable insertion sort, which gives the same result, because a stable sort by a key is unique.

## Notes on the code

- Two contracted particles at (0, 0) and (0.15, 0) walking towards each other do not move apart after one CPM tick. A particle on y = 0 lies within its radius of the bottom wall, so the wall override (src/main/java/ss/rules/CPM.java:25-29) replaces its direction: both particles move straight up at V_D. `Scenarios.CpmHeadOnAtBottomWall` states this.
- The band test of `isFrontCollider` (src/main/java/ss/model/Contact.java:42-51) is a discriminant test for the *infinite* line through a shoulder, so a disc behind the particle also passes it. `Contact.LineIntersectionMeaning` states this by quantifying over every real line parameter s.
- AACPM calls `signedAngleTo` (src/main/java/ss/rules/AACPM.java:91), which `Vector2D.java` does not define. It is modelled as `atan2(cross, dot)`, the same formula as `Contact.angleBetween`.

=== FILE: aacpm.dfy ===
/**
  The avoidance-augmented ACPM (AACPM): contact is decided as in ACPM, but a free
  particle also steers around the two nearest particles ahead of it and away from the
  nearer wall. The update reads only the input list and returns a new one, and uses the
  constant time step DT.
*/
module AacpmRuleset {
  import opened RealArith
  import opened Parameters
  import opened Transcendental
  import opened Vectors
  import opened Particles
  import opened Ordering
  import opened Neighbours
  import opened Motion
  import AcpmRuleset

  /** The sign of x: 1 when positive, -1 when negative, 0 at zero. */
  function Signum(x: real): (r: real)
    ensures r == 1.0 <==> 0.0 < x
    ensures r == -1.0 <==> x < 0.0
    ensures r == 0.0 <==> x == 0.0
  {
    if 0.0 < x then 1.0 else if x < 0.0 then -1.0 else 0.0
  }

  /** -signum(alpha) * | |alpha| - pi/2 |: the turn applied to the unit vector from j to i. */
  function RotationAngle(alpha: real, pi: real): real {
    -Signum(alpha) * Abs(Abs(alpha) - pi / 2.0)
  }

  /**
    The rotation has the sign opposite to alpha (none at alpha = 0 or |alpha| = pi/2),
    magnitude | |alpha| - pi/2 |, and is at most a quarter turn when |alpha| <= pi.
  */
  lemma RotationAngleLaws(alpha: real, pi: real)
    ensures var rot := RotationAngle(alpha, pi);
      && (0.0 < alpha ==> rot <= 0.0)
      && (alpha < 0.0 ==> 0.0 <= rot)
      && (rot == 0.0 <==> alpha == 0.0 || Abs(alpha) == pi / 2.0)
      && (alpha != 0.0 ==> Abs(rot) == Abs(Abs(alpha) - pi / 2.0))
      && (0.0 <= pi && Abs(alpha) <= pi ==> Abs(rot) <= pi / 2.0)
  {
    var f := Abs(Abs(alpha) - pi / 2.0);
    ProductZero(Signum(alpha), f);
  }

  /**
    computeCollisionVector: zero when j is not in front of i's heading; otherwise the
    unit vector from j to i turned by RotationAngle(alpha), where alpha is the angle from
    it to the relative velocity, and scaled by A_P * exp(-|i - j| / B_P).
  */
  function CollisionVector(math: MathLib, i: Particle, j: Particle): Vector2D {
    var rij := i.position.Subtract(j.position);
    var vij := j.velocity.Subtract(i.velocity);
    var dij := rij.Magnitude(math);
    var beta := i.velocity.SignedAngleTo(math, rij);
    if Abs(beta) < math.pi / 2.0 then Zero
    else
      var eij := rij.Normalize(math);
      var alpha := eij.SignedAngleTo(math, vij);
      var ecij := eij.Rotate(math, RotationAngle(alpha, math.pi));
      ecij.Scale(A_P * math.exp(-dij / B_P))
  }

  /** The exponential weight A_P * exp(-d / B_P) of a collision vector. */
  function CollisionWeight(math: MathLib, i: Particle, j: Particle): real {
    A_P * math.exp(-i.position.Subtract(j.position).Magnitude(math) / B_P)
  }

  /** A unit vector scaled by a positive weight has the weight as length and is not zero. */
  lemma ScaledUnit(u: Vector2D, w: real)
    requires u.Dot(u) == 1.0 && 0.0 < w
    ensures u.Scale(w).Dot(u.Scale(w)) == w * w
    ensures u.Scale(w) != Zero
  {
    ScaleSquaredLength(u, w);
    SquarePos(w);
    SquaredLengthZero(u.Scale(w));
  }

  /** The collision vector is zero when j lies strictly behind i's heading or either vector is zero. */
  lemma CollisionVectorVanishes(math: MathLib, i: Particle, j: Particle)
    requires Atan2Laws(math)
    requires var rij := i.position.Subtract(j.position);
      0.0 < i.velocity.Dot(rij) || i.velocity == Zero || rij == Zero
    ensures CollisionVector(math, i, j) == Zero
  {
    SignedAngleWithinQuarter(math, i.velocity, i.position.Subtract(j.position));
  }

  /** Otherwise it is the rotated unit vector from j to i, of length A_P * exp(-|i - j| / B_P). */
  lemma CollisionVectorLength(math: MathLib, i: Particle, j: Particle)
    requires SqrtLaws(math) && TrigLaws(math) && ExpLaws(math) && Atan2Laws(math)
    requires var rij := i.position.Subtract(j.position);
      !(0.0 < i.velocity.Dot(rij) || i.velocity == Zero || rij == Zero)
    ensures CollisionVector(math, i, j) != Zero
    ensures CollisionVector(math, i, j).Dot(CollisionVector(math, i, j))
         == CollisionWeight(math, i, j) * CollisionWeight(math, i, j)
  {
    var rij := i.position.Subtract(j.position);
    SignedAngleWithinQuarter(math, i.velocity, rij);
    var eij := rij.Normalize(math);
    var rot := RotationAngle(eij.SignedAngleTo(math, j.velocity.Subtract(i.velocity)), math.pi);
    var ecij := eij.Rotate(math, rot);
    var weight := CollisionWeight(math, i, j);
    assert CollisionVector(math, i, j) == ecij.Scale(weight);
    NormalizeUnit(math, rij);
    RotateIsometry(math, eij, rot);
    var e := math.exp(-rij.Magnitude(math) / B_P);
    assert 0.0 < e;
    MulPos(A_P, e);
    ScaledUnit(ecij, weight);
  }

  /**
    The collision vector vanishes exactly when j lies strictly behind i's heading
    (i.velocity . (i - j) > 0) or either vector is zero; otherwise its length is the
    exponential weight.
  */
  lemma CollisionVectorLaws(math: MathLib, i: Particle, j: Particle)
    requires SqrtLaws(math) && TrigLaws(math) && ExpLaws(math) && Atan2Laws(math)
    ensures var rij := i.position.Subtract(j.position);
      CollisionVector(math, i, j) == Zero <==> 0.0 < i.velocity.Dot(rij) || i.velocity == Zero || rij == Zero
  {
    var rij := i.position.Subtract(j.position);
    if 0.0 < i.velocity.Dot(rij) || i.velocity == Zero || rij == Zero {
      CollisionVectorVanishes(math, i, j);
    } else {
      CollisionVectorLength(math, i, j);
    }
  }

  /** The quarter-turn bound holds for every alpha atan2 can produce. */
  lemma CollisionRotationBounded(math: MathLib, v: Vector2D, w: Vector2D)
    requires Atan2Laws(math)
    ensures Abs(RotationAngle(v.SignedAngleTo(math, w), math.pi)) <= math.pi / 2.0
  {
    RotationAngleLaws(v.SignedAngleTo(math, w), math.pi);
  }

  /**
    computeWallAvoidance: from the nearer wall (the bottom one exactly when y < W - y),
    the unit vector from the wall's foot point to p, scaled by A_W * exp(-d / B_W).
  */
  function WallAvoidance(math: MathLib, p: Particle): (r: Vector2D)
    ensures r.x == 0.0
  {
    var y := p.position.y;
    if y < W - y then WallTerm(math, p.position.Subtract(Vector2D(p.position.x, 0.0)), y)
    else WallTerm(math, p.position.Subtract(Vector2D(p.position.x, W)), W - y)
  }

  /** The push of one wall: the direction from its foot point, normalised, scaled by A_W * exp(-distance / B_W). */
  function WallTerm(math: MathLib, d: Vector2D, distance: real): (r: Vector2D)
    ensures d.x == 0.0 ==> r.x == 0.0
    ensures d == Zero ==> r == Zero
  {
    Zero.Add(d.Normalize(math).Scale(A_W * math.exp(-distance / B_W)))
  }

  /** Normalising a vertical vector keeps the sign of its y component. */
  lemma VerticalUnit(math: MathLib, v: Vector2D)
    requires SqrtLaws(math) && v.x == 0.0
    ensures 0.0 < v.y ==> 0.0 < v.Normalize(math).y
    ensures v.y < 0.0 ==> v.Normalize(math).y < 0.0
  {
    var e := v.Normalize(math);
    NormalizeUnit(math, v);
    if v != Zero {
      assert v.Dot(e) == v.y * e.y;
      if 0.0 < v.y && e.y <= 0.0 {
        MulNonneg(v.y, -e.y);
      }
      if v.y < 0.0 && 0.0 <= e.y {
        MulNonneg(-v.y, e.y);
      }
    }
  }

  /** Below the centre line and above the bottom wall, the wall avoidance points up. */
  lemma WallAvoidanceFromBottom(math: MathLib, p: Particle)
    requires SqrtLaws(math) && ExpLaws(math)
    requires 0.0 < p.position.y < W - p.position.y
    ensures 0.0 < WallAvoidance(math, p).y
  {
    var y := p.position.y;
    var d := p.position.Subtract(Vector2D(p.position.x, 0.0));
    VerticalUnit(math, d);
    var e := d.Normalize(math);
    var x := math.exp(-y / B_W);
    assert 0.0 < x;
    MulPos(A_W, x);
    MulPos(e.y, A_W * x);
    assert WallTerm(math, d, y) == Zero.Add(e.Scale(A_W * x));
  }

  /** From the centre line up to the top wall, the wall avoidance points down. */
  lemma WallAvoidanceFromTop(math: MathLib, p: Particle)
    requires SqrtLaws(math) && ExpLaws(math)
    requires W - p.position.y <= p.position.y < W
    ensures WallAvoidance(math, p).y < 0.0
  {
    var y := p.position.y;
    var d := p.position.Subtract(Vector2D(p.position.x, W));
    VerticalUnit(math, d);
    var e := d.Normalize(math);
    var x := math.exp(-(W - y) / B_W);
    assert 0.0 < x;
    MulPos(A_W, x);
    MulPos(-e.y, A_W * x);
    assert WallTerm(math, d, W - y) == Zero.Add(e.Scale(A_W * x));
  }

  /** A particle exactly on the bottom wall gets no wall avoidance: the direction is normalize(0, 0). */
  lemma WallAvoidanceOnBottomWall(math: MathLib, p: Particle)
    requires p.position.y == 0.0
    ensures WallAvoidance(math, p) == Zero
  {
    assert p.position.Subtract(Vector2D(p.position.x, 0.0)) == Zero;
  }

  /** The free-state steering: collision vectors of the two nearest particles ahead, then the wall term. */
  function Avoidance(math: MathLib, s: seq<Particle>, k: nat): Vector2D
    requires k < |s|
  {
    SumOf(TwoNearestFront(math, s, k), o => CollisionVector(math, s[k], o)).Add(WallAvoidance(math, s[k]))
  }

  /** The free-state velocity: avoidance + desired, normalised, at the free speed of the new radius. */
  function FreeVelocity(math: MathLib, s: seq<Particle>, k: nat, radius: real): Vector2D
    requires k < |s|
  {
    Avoidance(math, s, k).Add(Desired(s[k].goesLeft)).Normalize(math).Scale(FreeSpeed(math, radius))
  }

  /** Particle k's entry of the new list, decided from the unmodified input list s. */
  function Next(math: MathLib, s: seq<Particle>, k: nat): (q: Particle)
    requires k < |s|
    ensures q.id == s[k].id && q.goesLeft == s[k].goesLeft
    ensures q.position.Subtract(s[k].position) == q.velocity.Scale(DT)
  {
    var p := s[k];
    var free := !AcpmRuleset.InContact(math, s, k);
    var radius := if free then GrownRadius(p.radius, DT) else R_MIN;
    var velocity :=
      if free then FreeVelocity(math, s, k, radius)
      else ContactVelocity(math, AcpmRuleset.Repulsion(math, s, k).Add(Desired(p.goesLeft)));
    Particle(p.id, Advance(p.position, velocity, DT), velocity, radius, p.goesLeft)
  }

  /** A radius in [R_MIN, R_MAX] stays there. */
  lemma NextRadiusInRange(math: MathLib, s: seq<Particle>, k: nat)
    requires k < |s|
    ensures RadiusInRange(s[k].radius) ==> RadiusInRange(Next(math, s, k).radius)
  {
    if RadiusInRange(s[k].radius) {
      GrownRadiusInRange(s[k].radius, DT);
    }
  }

  /** In contact, AACPM moves a particle exactly as ACPM does with dt = DT. */
  lemma ContactAsAcpm(math: MathLib, s: seq<Particle>, k: nat)
    requires k < |s| && AcpmRuleset.InContact(math, s, k)
    ensures Next(math, s, k) == AcpmRuleset.Next(math, s, k, DT)
  {
  }

  /**
    Proof step only: names the free branch of Next so that FreeMotionSpeedOf can use it
    without unfolding Next; FreeMotionSpeed states its meaning.
  */
  lemma FreeMotion(math: MathLib, s: seq<Particle>, k: nat)
    requires k < |s| && !AcpmRuleset.InContact(math, s, k)
    ensures Next(math, s, k).radius == GrownRadius(s[k].radius, DT)
    ensures Next(math, s, k).velocity == FreeVelocity(math, s, k, GrownRadius(s[k].radius, DT))
  {
  }

  /**
    A free particle moves at the free speed of its grown radius along the steering sum
    avoidance + desired, and stands still when that sum is zero.
  */
  lemma FreeMotionSpeed(math: MathLib, s: seq<Particle>, k: nat)
    requires SqrtLaws(math)
    requires k < |s| && !AcpmRuleset.InContact(math, s, k)
    ensures MovesAlong(Next(math, s, k).velocity, Avoidance(math, s, k).Add(Desired(s[k].goesLeft)),
                       FreeSpeed(math, GrownRadius(s[k].radius, DT)))
  {
    var v := Next(math, s, k).velocity;
    var heading := Avoidance(math, s, k).Add(Desired(s[k].goesLeft));
    var speed := FreeSpeed(math, GrownRadius(s[k].radius, DT));
    FreeMotionSpeedOf(math, s, k, v, heading, speed);
    assert MovesAlong(v, heading, speed);
  }

  /** FreeMotionSpeed for a velocity, heading and speed already fixed by the caller. */
  lemma FreeMotionSpeedOf(math: MathLib, s: seq<Particle>, k: nat, v: Vector2D, heading: Vector2D, speed: real)
    requires SqrtLaws(math)
    requires k < |s| && !AcpmRuleset.InContact(math, s, k)
    requires v == Next(math, s, k).velocity
    requires heading == Avoidance(math, s, k).Add(Desired(s[k].goesLeft))
    requires speed == FreeSpeed(math, GrownRadius(s[k].radius, DT))
    ensures MovesAlong(v, heading, speed)
  {
    FreeMotion(math, s, k);
    AlongHeadingOf(math, v, heading, speed);
  }

  /**
    updateParticles: a new list of the same length whose entry k is particle k's update
    computed from the input list alone; ids, directions and radius bounds carry over.
  */
  method UpdateParticles(math: MathLib, particles: seq<Particle>) returns (next: seq<Particle>)
    ensures |next| == |particles|
    ensures forall k :: 0 <= k < |particles| ==> next[k] == Next(math, particles, k)
    ensures SameAgents(particles, next)
    ensures AllRadiiInRange(particles) ==> AllRadiiInRange(next)
  {
    next := [];
    for i := 0 to |particles|
      invariant |next| == i
      invariant forall k :: 0 <= k < i ==> next[k] == Next(math, particles, k)
      invariant forall k :: 0 <= k < i ==> RadiusInRange(particles[k].radius) ==> RadiusInRange(next[k].radius)
    {
      NextRadiusInRange(math, particles, i);
      next := next + [Next(math, particles, i)];
    }
  }
}

=== FILE: acpm.dfy ===
/**
  The anisotropic CPM (ACPM): only front colliders and walls closer than R_MIN count as
  contacts; a particle in contact escapes along the sum of the pushes away from all of
  them plus its desired heading.
*/
module AcpmRuleset {
  import opened RealArith
  import opened Parameters
  import opened Transcendental
  import opened Vectors
  import opened Particles
  import opened Contact
  import opened Ordering
  import opened Neighbours
  import opened Motion

  /** The wall terms: (0, -1) within R_MIN of the top wall, then (0, 1) within R_MIN of the bottom wall. */
  function WithWalls(repulsion: Vector2D, y: real): (r: Vector2D)
    ensures r.x == repulsion.x
    ensures W - y < R_MIN ==> y >= R_MIN && r.y == repulsion.y - 1.0
    ensures y < R_MIN ==> W - y >= R_MIN && r.y == repulsion.y + 1.0
    ensures W - y >= R_MIN && y >= R_MIN ==> r == repulsion
  {
    var top := if W - y < R_MIN then repulsion.Add(Vector2D(0.0, -1.0)) else repulsion;
    if y < R_MIN then top.Add(Vector2D(0.0, 1.0)) else top
  }

  /** The pushes away from the front colliders, nearest first, followed by the wall terms. */
  function Repulsion(math: MathLib, s: seq<Particle>, k: nat): Vector2D
    requires k < |s|
  {
    WithWalls(SumOf(FrontCollidersOf(math, s, k), o => Push(math, s[k], o)), s[k].position.y)
  }

  /** inContact: a front collider, or a wall closer than R_MIN. */
  predicate InContact(math: MathLib, s: seq<Particle>, k: nat)
    requires k < |s|
  {
    |FrontCollidersOf(math, s, k)| > 0 || W - s[k].position.y < R_MIN || s[k].position.y < R_MIN
  }

  /** Particle k after its ACPM update, computed from the list s as it stands when k's turn comes. */
  function Next(math: MathLib, s: seq<Particle>, k: nat, dt: real): (q: Particle)
    requires k < |s|
    ensures q.id == s[k].id && q.goesLeft == s[k].goesLeft
    ensures q.position.Subtract(s[k].position) == q.velocity.Scale(dt)
  {
    var p := s[k];
    if !InContact(math, s, k) then
      var radius := GrownRadius(p.radius, dt);
      var velocity := HorizontalVelocity(FreeSpeed(math, radius), p.goesLeft);
      Particle(p.id, Advance(p.position, velocity, dt), velocity, radius, p.goesLeft)
    else
      var velocity := ContactVelocity(math, Repulsion(math, s, k).Add(Desired(p.goesLeft)));
      Particle(p.id, Advance(p.position, velocity, dt), velocity, R_MIN, p.goesLeft)
  }

  /** A particle is in contact exactly when some other particle is its front collider or a wall is within R_MIN. */
  lemma InContactIff(math: MathLib, s: seq<Particle>, k: nat)
    requires k < |s|
    ensures InContact(math, s, k) <==>
      (|| (exists j :: 0 <= j < |s| && j != k && IsFrontCollider(math, s[k], s[j]))
       || W - s[k].position.y < R_MIN
       || s[k].position.y < R_MIN)
  {
    var colliders := FrontCollidersOf(math, s, k);
    if |colliders| > 0 {
      var e := colliders[0];
      assert e in colliders;
      assert RankedAt(math, s, k, e.index) == e;
      assert IsFrontCollider(math, s[k], s[e.index]);
    }
    if j :| 0 <= j < |s| && j != k && IsFrontCollider(math, s[k], s[j]) {
      assert RankedAt(math, s, k, j) in colliders;
    }
  }

  /**
    The nearest-first sort does not change the repulsion: summing the pushes over the
    front colliders in list order gives the same vector.
  */
  lemma RepulsionIgnoresOrder(math: MathLib, s: seq<Particle>, k: nat)
    requires k < |s|
    ensures Repulsion(math, s, k)
         == WithWalls(SumOf(Candidates(math, FrontColliders, s, k, |s|), o => Push(math, s[k], o)), s[k].position.y)
  {
    var candidates := Candidates(math, FrontColliders, s, k, |s|);
    SumOfPermutation(SortByKey(candidates), candidates, o => Push(math, s[k], o));
  }

  /**
    Proof step only: names the contact branch of Next so that ContactSpeedOf and the
    scenarios can use it without unfolding Next; ContactSpeed states its meaning.
  */
  lemma ContactMotion(math: MathLib, s: seq<Particle>, k: nat, dt: real)
    requires k < |s| && InContact(math, s, k)
    ensures Next(math, s, k, dt).radius == R_MIN
    ensures Next(math, s, k, dt).velocity == ContactVelocity(math, Repulsion(math, s, k).Add(Desired(s[k].goesLeft)))
  {
  }

  /**
    In contact the particle moves at exactly V_D, with a positive component along
    repulsion + desired, unless that sum is zero, in which case it stands still.
  */
  lemma ContactSpeed(math: MathLib, s: seq<Particle>, k: nat, dt: real)
    requires SqrtLaws(math)
    requires k < |s| && InContact(math, s, k)
    ensures MovesAlong(Next(math, s, k, dt).velocity, Repulsion(math, s, k).Add(Desired(s[k].goesLeft)), V_D)
  {
    var v := Next(math, s, k, dt).velocity;
    var heading := Repulsion(math, s, k).Add(Desired(s[k].goesLeft));
    ContactSpeedOf(math, s, k, dt, v, heading);
    assert MovesAlong(v, heading, V_D);
  }

  /** ContactSpeed for a velocity and heading already fixed by the caller. */
  lemma ContactSpeedOf(math: MathLib, s: seq<Particle>, k: nat, dt: real, v: Vector2D, heading: Vector2D)
    requires SqrtLaws(math)
    requires k < |s| && InContact(math, s, k)
    requires v == Next(math, s, k, dt).velocity
    requires heading == Repulsion(math, s, k).Add(Desired(s[k].goesLeft))
    ensures MovesAlong(v, heading, V_D)
  {
    ContactMotion(math, s, k, dt);
    ContactVelocityOf(math, v, heading);
  }

  /**
    A free particle re-expands by R_MAX * dt / TAU up to R_MAX and walks horizontally at
    the free speed of its new radius, towards its exit when dt > 0.
  */
  lemma FreeMotion(math: MathLib, s: seq<Particle>, k: nat, dt: real)
    requires k < |s| && !InContact(math, s, k)
    ensures var q := Next(math, s, k, dt);
      && q.radius == GrownRadius(s[k].radius, dt)
      && q.velocity.y == 0.0
      && q.velocity.Dot(q.velocity) == FreeSpeed(math, q.radius) * FreeSpeed(math, q.radius)
      && (PowLaws(math) && 0.0 < dt && R_MIN <= s[k].radius ==> (q.velocity.x < 0.0 <==> s[k].goesLeft))
  {
    var q := Next(math, s, k, dt);
    if PowLaws(math) {
      FreeSpeedSign(math, q.radius);
    }
  }

  /** A radius in [R_MIN, R_MAX] stays there for dt >= 0. */
  lemma NextRadiusInRange(math: MathLib, s: seq<Particle>, k: nat, dt: real)
    requires k < |s|
    ensures RadiusInRange(s[k].radius) && 0.0 <= dt ==> RadiusInRange(Next(math, s, k, dt).radius)
  {
  }
}

=== FILE: contact.dfy ===
/**
  The contact test of the rulesets: whether particle j lies in front of particle i
  closely enough to count as a collision for i.
*/
module Contact {
  import opened RealArith
  import opened Parameters
  import opened Transcendental
  import opened Vectors
  import opened Particles

  /** The signed angle from v2 to v1, as atan2 of their cross and dot products. */
  function AngleBetween(math: MathLib, v1: Vector2D, v2: Vector2D): real {
    v2.SignedAngleTo(math, v1)
  }

  /** The discs of i and j overlap: their centres are closer than the sum of the radii. */
  predicate Overlap(math: MathLib, i: Particle, j: Particle) {
    j.position.Subtract(i.position).Magnitude(math) < i.radius + j.radius
  }

  /**
    j is a front collider of i: the discs overlap, and either i is fully contracted
    (a physical contact counts from any side) or j lies in the closed half plane ahead
    of i's velocity and i's swept band meets j's disc.
  */
  function IsFrontCollider(math: MathLib, i: Particle, j: Particle): (r: bool)
    ensures r ==> Overlap(math, i, j)
    ensures Overlap(math, i, j) && i.radius == R_MIN ==> r
    ensures r && i.radius != R_MIN ==> LineIntersection(math, i, j)
  {
    if !Overlap(math, i, j) then false
    else if i.radius == R_MIN then true
    else
      var angle := AngleBetween(math, j.position.Subtract(i.position), i.velocity);
      if angle < -math.pi / 2.0 || angle > math.pi / 2.0 then false
      else LineIntersection(math, i, j)
  }

  /** The two points at distance R_MIN either side of position, across the heading dir. */
  function Shoulders(position: Vector2D, dir: Vector2D): (r: (Vector2D, Vector2D))
    ensures dir == Zero ==> r.0 == position && r.1 == position
  {
    var perp := Vector2D(-dir.y, dir.x);
    (position.Add(perp.Scale(R_MIN)), position.Subtract(perp.Scale(R_MIN)))
  }

  /**
    The band i sweeps along its heading, bounded by the two lines through its
    shoulders, meets j's disc on at least one of its edges.
  */
  function LineIntersection(math: MathLib, i: Particle, j: Particle): (r: bool)
    ensures i.velocity == Zero ==> r
  {
    var dir := i.velocity.Normalize(math);
    var (left, right) := Shoulders(i.position, dir);
    LineIntersectsCircle(left, dir, j.position, j.radius)
      || LineIntersectsCircle(right, dir, j.position, j.radius)
  }

  /** b^2 - 4ac of |p + s dir - center|^2 - radius^2 as a quadratic in s. */
  function Discriminant(p: Vector2D, dir: Vector2D, center: Vector2D, radius: real): real {
    var f := p.Subtract(center);
    var a := dir.Dot(dir);
    var b := 2.0 * f.Dot(dir);
    var c := f.Dot(f) - radius * radius;
    b * b - 4.0 * a * c
  }

  /** The infinite line through p along dir meets the closed disc (a degenerate dir counts as a hit). */
  function LineIntersectsCircle(p: Vector2D, dir: Vector2D, center: Vector2D, radius: real): (r: bool)
    ensures dir == Zero ==> r
  {
    Discriminant(p, dir, center, radius) >= 0.0
  }

  /** q lies in the closed disc of the given centre and radius. */
  predicate InDisk(q: Vector2D, center: Vector2D, radius: real) {
    q.Subtract(center).Dot(q.Subtract(center)) <= radius * radius
  }

  /** |f + s d|^2 expanded as a quadratic in s. */
  lemma ShiftedSquare(p: Vector2D, dir: Vector2D, center: Vector2D, s: real)
    ensures var f := p.Subtract(center);
      p.Add(dir.Scale(s)).Subtract(center).Dot(p.Add(dir.Scale(s)).Subtract(center))
        == dir.Dot(dir) * (s * s) + 2.0 * f.Dot(dir) * s + f.Dot(f)
  {
  }

  /**
    The discriminant test is exactly the geometric one: it holds when dir is zero,
    and otherwise exactly when some point of the line lies in the disc.
  */
  lemma LineIntersectsCircleMeaning(p: Vector2D, dir: Vector2D, center: Vector2D, radius: real)
    ensures LineIntersectsCircle(p, dir, center, radius) <==>
      (dir == Zero || exists s :: InDisk(p.Add(dir.Scale(s)), center, radius))
  {
    if s :| InDisk(p.Add(dir.Scale(s)), center, radius) {
      PointGivesHit(p, dir, center, radius, s);
    }
    if dir != Zero && LineIntersectsCircle(p, dir, center, radius) {
      var s := HitGivesPoint(p, dir, center, radius);
    }
  }

  /** A point of the line in the disc makes the discriminant non-negative. */
  lemma PointGivesHit(p: Vector2D, dir: Vector2D, center: Vector2D, radius: real, s: real)
    requires InDisk(p.Add(dir.Scale(s)), center, radius)
    ensures LineIntersectsCircle(p, dir, center, radius)
  {
    var f := p.Subtract(center);
    SquaredLengthZero(dir);
    ShiftedSquare(p, dir, center, s);
    DiscriminantFromPoint(dir.Dot(dir), 2.0 * f.Dot(dir), f.Dot(f) - radius * radius, s);
  }

  /** A non-negative discriminant puts the point of the line nearest the centre in the disc. */
  lemma HitGivesPoint(p: Vector2D, dir: Vector2D, center: Vector2D, radius: real) returns (s: real)
    requires dir != Zero && LineIntersectsCircle(p, dir, center, radius)
    ensures InDisk(p.Add(dir.Scale(s)), center, radius)
  {
    var f := p.Subtract(center);
    var a := dir.Dot(dir);
    var b := 2.0 * f.Dot(dir);
    SquaredLengthZero(dir);
    s := -b / (2.0 * a);
    VertexInside(a, b, f.Dot(f) - radius * radius, s);
    ShiftedSquare(p, dir, center, s);
  }

  /** Overlap compares squared lengths. */
  lemma OverlapPolynomial(math: MathLib, i: Particle, j: Particle)
    requires SqrtLaws(math)
    ensures var rij := j.position.Subtract(i.position);
      var sum := i.radius + j.radius;
      Overlap(math, i, j) <==> 0.0 < sum && rij.Dot(rij) < sum * sum
  {
    var rij := j.position.Subtract(i.position);
    SquaredLengthZero(rij);
    SqrtBelow(math, rij.Dot(rij), i.radius + j.radius);
  }

  /**
    The front-collider test without square roots or angles: overlapping discs, and
    either i is contracted or j is not behind i's heading and the band meets j.
  */
  lemma FrontColliderPolynomial(math: MathLib, i: Particle, j: Particle)
    requires SqrtLaws(math) && Atan2Laws(math)
    ensures var rij := j.position.Subtract(i.position);
      var sum := i.radius + j.radius;
      IsFrontCollider(math, i, j) <==>
        (&& 0.0 < sum && rij.Dot(rij) < sum * sum
         && (i.radius == R_MIN || (0.0 <= i.velocity.Dot(rij) && LineIntersection(math, i, j))))
  {
    var rij := j.position.Subtract(i.position);
    OverlapPolynomial(math, i, j);
    Atan2ClosedHalfPlane(math, i.velocity.Cross(rij), i.velocity.Dot(rij));
  }

  /** A particle at rest sees every overlapping particle as a front collider. */
  lemma ZeroVelocityCollidesOnOverlap(math: MathLib, i: Particle, j: Particle)
    requires Atan2Laws(math)
    requires i.velocity == Zero
    ensures IsFrontCollider(math, i, j) <==> Overlap(math, i, j)
  {
    var rij := j.position.Subtract(i.position);
    Atan2ClosedHalfPlane(math, i.velocity.Cross(rij), i.velocity.Dot(rij));
  }

  /**
    For a moving particle the shoulders sit R_MIN from its centre on opposite sides, on
    the line through the centre perpendicular to the heading, and the heading is a unit vector.
  */
  lemma ShoulderGeometry(math: MathLib, i: Particle)
    requires SqrtLaws(math)
    requires i.velocity != Zero
    ensures var dir := i.velocity.Normalize(math);
      var (left, right) := Shoulders(i.position, dir);
      && dir.Dot(dir) == 1.0
      && left.Subtract(i.position).Dot(dir) == 0.0
      && right.Subtract(i.position).Dot(dir) == 0.0
      && left.Subtract(i.position).Dot(left.Subtract(i.position)) == R_MIN * R_MIN
      && right.Subtract(i.position).Dot(right.Subtract(i.position)) == R_MIN * R_MIN
      && left.Subtract(i.position) == i.position.Subtract(right)
  {
    var dir := i.velocity.Normalize(math);
    NormalizeUnit(math, i.velocity);
    var perp := Vector2D(-dir.y, dir.x);
    ScaleSquaredLength(perp, R_MIN);
    ScaleSquaredLength(perp, -R_MIN);
    assert i.position.Add(perp.Scale(R_MIN)).Subtract(i.position) == perp.Scale(R_MIN);
    assert i.position.Subtract(perp.Scale(R_MIN)).Subtract(i.position) == perp.Scale(-R_MIN);
  }

  /**
    The band test in geometric terms: a particle at rest always passes it, and a moving
    one passes exactly when a line through one of its shoulders, along its heading,
    reaches j's disc.
  */
  lemma LineIntersectionMeaning(math: MathLib, i: Particle, j: Particle)
    requires SqrtLaws(math)
    ensures var dir := i.velocity.Normalize(math);
      var (left, right) := Shoulders(i.position, dir);
      LineIntersection(math, i, j) <==>
        (|| i.velocity == Zero
         || (exists s :: InDisk(left.Add(dir.Scale(s)), j.position, j.radius))
         || (exists s :: InDisk(right.Add(dir.Scale(s)), j.position, j.radius)))
  {
    var dir := i.velocity.Normalize(math);
    var (left, right) := Shoulders(i.position, dir);
    NormalizeUnit(math, i.velocity);
    LineIntersectsCircleMeaning(left, dir, j.position, j.radius);
    LineIntersectsCircleMeaning(right, dir, j.position, j.radius);
  }
}

=== FILE: cpm.dfy ===
/**
  The contractile particle model (CPM): a particle touching another particle or a wall
  contracts to R_MIN and escapes at V_D; a free particle re-expands and walks along its
  desired heading at a radius-dependent speed.
*/
module CpmRuleset {
  import opened RealArith
  import opened Parameters
  import opened Transcendental
  import opened Optional
  import opened Vectors
  import opened Particles
  import opened Motion

  /** interacting(a, b): the centres are closer than the sum of the radii. */
  predicate Interacting(math: MathLib, a: Particle, b: Particle) {
    a.position.DistanceTo(math, b.position) < a.radius + b.radius
  }

  /** Interaction is mutual. */
  lemma InteractingSymmetric(math: MathLib, a: Particle, b: Particle)
    ensures Interacting(math, a, b) <==> Interacting(math, b, a)
  {
    DistanceLaws(math, a.position, b.position);
  }

  /** Interaction compares the squared centre distance with the squared radius sum. */
  lemma InteractingPolynomial(math: MathLib, a: Particle, b: Particle)
    requires SqrtLaws(math)
    ensures var d := a.position.Subtract(b.position);
      var sum := a.radius + b.radius;
      Interacting(math, a, b) <==> 0.0 < sum && d.Dot(d) < sum * sum
  {
    var d := a.position.Subtract(b.position);
    SquaredLengthZero(d);
    SqrtBelow(math, d.Dot(d), a.radius + b.radius);
  }

  /**
    The scan of CPM.java's inner loop from index `from` on: the first particle other
    than s[k], in list order, that interacts with s[k].
  */
  function FirstInteracting(math: MathLib, s: seq<Particle>, k: nat, from: nat): (r: Option<nat>)
    requires k < |s| && from <= |s|
    ensures r.Some? ==> from <= r.value < |s| && r.value != k && Interacting(math, s[k], s[r.value])
    ensures r.Some? ==> forall j :: from <= j < r.value && j != k ==> !Interacting(math, s[k], s[j])
    ensures r.None? <==> forall j :: from <= j < |s| && j != k ==> !Interacting(math, s[k], s[j])
    decreases |s| - from
  {
    if from == |s| then None
    else if from != k && Interacting(math, s[k], s[from]) then Some(from)
    else FirstInteracting(math, s, k, from + 1)
  }

  /** The distance from height y to the nearer wall: the smaller of W - y and y. */
  function WallDistance(y: real): (d: real)
    ensures d <= W - y && d <= y
    ensures d == W - y || d == y
  {
    if W - y < y then W - y else y
  }

  /**
    The unit direction a particle in contact escapes along, or None when it is free.
    A wall closer than the particle's radius overrides a particle contact.
  */
  function Escape(math: MathLib, s: seq<Particle>, k: nat): (r: Option<Vector2D>)
    requires k < |s|
    ensures r.None? <==> WallDistance(s[k].position.y) >= s[k].radius && FirstInteracting(math, s, k, 0).None?
  {
    var p := s[k];
    if WallDistance(p.position.y) < p.radius then
      Some(Vector2D(0.0, if p.position.y < p.radius then 1.0 else -1.0))
    else
      match FirstInteracting(math, s, k, 0)
      case Some(j) => Some(Push(math, p, s[j]))
      case None => None
  }

  /** Particle k after its CPM update, computed from the list s as it stands when k's turn comes. */
  function Next(math: MathLib, s: seq<Particle>, k: nat, dt: real): (q: Particle)
    requires k < |s|
    ensures q.id == s[k].id && q.goesLeft == s[k].goesLeft
    ensures q.position.Subtract(s[k].position) == q.velocity.Scale(dt)
  {
    var p := s[k];
    match Escape(math, s, k)
    case None =>
      var radius := GrownRadius(p.radius, dt);
      var velocity := HorizontalVelocity(FreeSpeed(math, radius), p.goesLeft);
      Particle(p.id, Advance(p.position, velocity, dt), velocity, radius, p.goesLeft)
    case Some(unit) =>
      var velocity := unit.Scale(V_D);
      Particle(p.id, Advance(p.position, velocity, dt), velocity, R_MIN, p.goesLeft)
  }

  /**
    Wall override: within its radius of a wall a particle contracts and moves straight
    off the wall at V_D, up when y is below its radius and down otherwise, whatever
    particles it touches.
  */
  lemma WallOverride(math: MathLib, s: seq<Particle>, k: nat, dt: real)
    requires k < |s|
    requires WallDistance(s[k].position.y) < s[k].radius
    ensures Next(math, s, k, dt).radius == R_MIN
    ensures Next(math, s, k, dt).velocity
         == Vector2D(0.0, if s[k].position.y < s[k].radius then V_D else -V_D)
  {
  }

  /**
    Away from the walls, the first interacting particle in list order, and only it,
    sets the escape direction: p - other, normalised, at speed V_D.
  */
  lemma FirstContactDecides(math: MathLib, s: seq<Particle>, k: nat, j: nat, dt: real)
    requires k < |s| && j < |s| && j != k
    requires WallDistance(s[k].position.y) >= s[k].radius
    requires Interacting(math, s[k], s[j])
    requires forall i :: 0 <= i < j && i != k ==> !Interacting(math, s[k], s[i])
    ensures Next(math, s, k, dt).radius == R_MIN
    ensures Next(math, s, k, dt).velocity == Push(math, s[k], s[j]).Scale(V_D)
  {
    var r := FirstInteracting(math, s, k, 0);
    assert r.Some?;
  }

  /**
    A free particle (no interacting particle, no wall within its radius) re-expands
    by R_MAX * dt / TAU up to R_MAX and walks horizontally at the free speed of its
    new radius; with dt > 0 and a radius from R_MIN on, it moves towards its exit
    (negative x exactly when it goes left).
  */
  lemma FreeMotion(math: MathLib, s: seq<Particle>, k: nat, dt: real)
    requires k < |s|
    requires WallDistance(s[k].position.y) >= s[k].radius
    requires forall j :: 0 <= j < |s| && j != k ==> !Interacting(math, s[k], s[j])
    ensures var q := Next(math, s, k, dt);
      && q.radius == GrownRadius(s[k].radius, dt)
      && q.velocity.y == 0.0
      && q.velocity.Dot(q.velocity) == FreeSpeed(math, q.radius) * FreeSpeed(math, q.radius)
      && (PowLaws(math) && 0.0 < dt && R_MIN <= s[k].radius ==> (q.velocity.x < 0.0 <==> s[k].goesLeft))
  {
    var q := Next(math, s, k, dt);
    if PowLaws(math) {
      FreeSpeedSign(math, q.radius);
    }
  }

  /** In contact a particle has radius R_MIN and, unless its escape direction is zero, speed V_D. */
  lemma ContactMotion(math: MathLib, s: seq<Particle>, k: nat, dt: real)
    requires SqrtLaws(math)
    requires k < |s| && Escape(math, s, k).Some?
    ensures var q := Next(math, s, k, dt);
      && q.radius == R_MIN
      && (Escape(math, s, k).value != Zero ==> q.velocity.Dot(q.velocity) == V_D * V_D)
  {
    var p := s[k];
    var unit := Escape(math, s, k).value;
    ScaleSquaredLength(unit, V_D);
    if WallDistance(p.position.y) >= p.radius && unit != Zero {
      var j := FirstInteracting(math, s, k, 0).value;
      NormalizeUnit(math, p.position.Subtract(s[j].position));
    }
  }

  /** A radius in [R_MIN, R_MAX] stays there for dt >= 0. */
  lemma NextRadiusInRange(math: MathLib, s: seq<Particle>, k: nat, dt: real)
    requires k < |s|
    ensures RadiusInRange(s[k].radius) && 0.0 <= dt ==> RadiusInRange(Next(math, s, k, dt).radius)
  {
  }
}

=== FILE: motion.dfy ===
/**
  The pieces of the two-state (contact / free) update that CPM, ACPM and AACPM share:
  radius growth, the radius-dependent free speed, the free horizontal velocity and the
  contact speed along a direction.
*/
module Motion {
  import opened RealArith
  import opened Parameters
  import opened Transcendental
  import opened Vectors
  import opened Particles

  /** The radius grown by R_MAX * dt / TAU, or R_MAX if that is smaller: growth towards the relaxed radius, capped. */
  function GrownRadius(radius: real, dt: real): (r: real)
    ensures r <= R_MAX && r <= radius + R_MAX * dt / TAU
    ensures r == R_MAX || r == radius + R_MAX * dt / TAU
    ensures 0.0 <= dt && R_MIN <= radius ==> R_MIN <= r
    ensures 0.0 < dt && radius < R_MAX ==> radius < r
  {
    var grown := radius + R_MAX * dt / TAU;
    if grown < R_MAX then grown else R_MAX
  }

  /** A radius in [R_MIN, R_MAX] stays there after growth by a non-negative step. */
  lemma GrownRadiusInRange(radius: real, dt: real)
    requires RadiusInRange(radius) && 0.0 <= dt
    ensures RadiusInRange(GrownRadius(radius, dt))
  {
  }

  /** V_D * ((radius - R_MIN) / (R_MAX - R_MIN)) ^ BETA. */
  function FreeSpeed(math: MathLib, radius: real): real {
    V_D * math.pow((radius - R_MIN) / (R_MAX - R_MIN), BETA)
  }

  /** The free speed is non-negative from R_MIN up, and positive above R_MIN. */
  lemma FreeSpeedSign(math: MathLib, radius: real)
    requires PowLaws(math)
    ensures R_MIN <= radius ==> 0.0 <= FreeSpeed(math, radius)
    ensures R_MIN < radius ==> 0.0 < FreeSpeed(math, radius)
  {
    var base := (radius - R_MIN) / (R_MAX - R_MIN);
    assert R_MIN <= radius ==> 0.0 <= base;
    assert R_MIN < radius ==> 0.0 < base;
    var p := math.pow(base, BETA);
    if R_MIN <= radius {
      MulNonneg(V_D, p);
    }
    if R_MIN < radius {
      MulPos(V_D, p);
    }
  }

  /** The horizontal velocity of the given speed, towards -x when going left and +x otherwise. */
  function HorizontalVelocity(speed: real, goesLeft: bool): (v: Vector2D)
    ensures v.y == 0.0 && v.Dot(v) == speed * speed
    ensures 0.0 < speed ==> (v.x < 0.0 <==> goesLeft)
  {
    Vector2D(speed * (if goesLeft then -1.0 else 1.0), 0.0)
  }

  /** Moving at V_D along the normalised direction: the contact velocity of ACPM and AACPM. */
  function ContactVelocity(math: MathLib, direction: Vector2D): (v: Vector2D)
    ensures direction == Zero ==> v == Zero
  {
    direction.Normalize(math).Scale(V_D)
  }

  /**
    v moves along the heading at the given speed: parallel to it, of that length, and on
    its side for a positive speed; or v stands still for a zero heading.
  */
  predicate MovesAlong(v: Vector2D, heading: Vector2D, speed: real) {
    && (heading == Zero ==> v == Zero)
    && (heading != Zero ==> v.Dot(v) == speed * speed && heading.Cross(v) == 0.0 && (0.0 < speed ==> 0.0 < v.Dot(heading)))
  }

  /**
    A heading, normalised and scaled by a speed: zero for a zero heading, otherwise
    parallel to the heading with that speed, and on its side when the speed is positive.
  */
  lemma AlongHeading(math: MathLib, heading: Vector2D, speed: real)
    requires SqrtLaws(math)
    ensures MovesAlong(heading.Normalize(math).Scale(speed), heading, speed)
  {
    var u := heading.Normalize(math);
    NormalizeUnit(math, heading);
    ScaleSquaredLength(u, speed);
    assert heading.Cross(u.Scale(speed)) == speed * heading.Cross(u);
    if heading != Zero && 0.0 < speed {
      assert u.Scale(speed).Dot(heading) == speed * u.Dot(heading);
      MulPos(speed, u.Dot(heading));
    }
  }

  /** AlongHeading for a velocity already known to be the heading normalised and scaled by the speed. */
  lemma AlongHeadingOf(math: MathLib, v: Vector2D, heading: Vector2D, speed: real)
    requires SqrtLaws(math) && v == heading.Normalize(math).Scale(speed)
    ensures MovesAlong(v, heading, speed)
  {
    AlongHeading(math, heading, speed);
  }

  /** The contact velocity is parallel to the direction with speed V_D on its side, and is zero exactly for a zero direction. */
  lemma ContactVelocityLaws(math: MathLib, direction: Vector2D)
    requires SqrtLaws(math)
    ensures var v := ContactVelocity(math, direction);
      && (v == Zero <==> direction == Zero)
      && (direction != Zero ==> v.Dot(v) == V_D * V_D && direction.Cross(v) == 0.0 && 0.0 < v.Dot(direction))
  {
    AlongHeading(math, direction, V_D);
    NormalizeUnit(math, direction);
  }

  /** ContactVelocityLaws for a velocity already known to be the contact velocity of the direction. */
  lemma ContactVelocityOf(math: MathLib, v: Vector2D, direction: Vector2D)
    requires SqrtLaws(math) && v == ContactVelocity(math, direction)
    ensures MovesAlong(v, direction, V_D)
  {
    AlongHeading(math, direction, V_D);
  }

  /** The escape direction from other: p - other, normalised. */
  function Push(math: MathLib, p: Particle, other: Particle): Vector2D {
    p.position.Subtract(other.position).Normalize(math)
  }
}

=== FILE: naive.dfy ===
/** The Naive ruleset: every particle keeps its velocity and radius and drifts for dt. */
module NaiveRuleset {
  import opened Vectors
  import opened Particles

  /** Particle k after one Naive step: position += velocity * dt, nothing else changes. */
  function Next(s: seq<Particle>, k: nat, dt: real): (q: Particle)
    requires k < |s|
    ensures q.id == s[k].id && q.goesLeft == s[k].goesLeft
    ensures q.velocity == s[k].velocity && q.radius == s[k].radius
    ensures q.position.Subtract(s[k].position) == s[k].velocity.Scale(dt)
    ensures dt == 0.0 ==> q == s[k]
  {
    s[k].(position := Advance(s[k].position, s[k].velocity, dt))
  }
}

=== FILE: neighbours.dfy ===
/**
  Neighbour selection shared by the rulesets: the particles that qualify relative to
  particle k, ranked by their distance to it, and sums over such rankings.
*/
module Neighbours {
  import opened Transcendental
  import opened Vectors
  import opened Particles
  import opened Contact
  import opened Ordering

  /** Which test a neighbour has to pass. */
  datatype Scan =
    | FrontColliders  // Contact.isFrontCollider, as in getFrontColliders
    | AheadHalfPlane  // |signedAngleTo(velocity, other - p)| <= pi/2, as in getTwoNearestFront

  predicate Qualifies(math: MathLib, scan: Scan, p: Particle, other: Particle) {
    match scan
    case FrontColliders => IsFrontCollider(math, p, other)
    case AheadHalfPlane =>
      Abs(p.velocity.SignedAngleTo(math, other.position.Subtract(p.position))) <= math.pi / 2.0
  }

  /** The sort key: the distance from the neighbour's position to p's. */
  function Separation(math: MathLib, p: Particle, other: Particle): real {
    other.position.DistanceTo(math, p.position)
  }

  /** Particle j of s, tagged with its index and its distance to particle k. */
  function RankedAt(math: MathLib, s: seq<Particle>, k: nat, j: nat): (e: Ranked<Particle>)
    requires k < |s| && j < |s|
    ensures e.index == j && e.item == s[j]
  {
    Ranked(j, s[j], Separation(math, s[k], s[j]))
  }

  /** The particles among s[..n], other than s[k] itself, that pass the scan, in list order. */
  function Candidates(math: MathLib, scan: Scan, s: seq<Particle>, k: nat, n: nat): (r: seq<Ranked<Particle>>)
    requires k < |s| && n <= |s|
    ensures forall e :: e in r ==> e.index < n && e.index != k && e == RankedAt(math, s, k, e.index)
    ensures forall e :: e in r ==> Qualifies(math, scan, s[k], s[e.index])
    ensures forall j :: 0 <= j < n && j != k && Qualifies(math, scan, s[k], s[j]) ==> RankedAt(math, s, k, j) in r
    ensures IndexIncreasing(r)
  {
    if n == 0 then []
    else
      var prefix := Candidates(math, scan, s, k, n - 1);
      var j := n - 1;
      if j != k && Qualifies(math, scan, s[k], s[j]) then prefix + [RankedAt(math, s, k, j)]
      else prefix
  }

  /** getFrontColliders: the front colliders of particle k, nearest first. */
  function FrontCollidersOf(math: MathLib, s: seq<Particle>, k: nat): (r: seq<Ranked<Particle>>)
    requires k < |s|
    ensures forall e :: e in r ==> e.index != k && e.index < |s| && e == RankedAt(math, s, k, e.index)
    ensures forall j :: 0 <= j < |s| ==>
      (RankedAt(math, s, k, j) in r <==> j != k && IsFrontCollider(math, s[k], s[j]))
  {
    SortByKey(Candidates(math, FrontColliders, s, k, |s|))
  }

  /** getTwoNearestFront: up to two particles ahead of particle k, nearest first. */
  function TwoNearestFront(math: MathLib, s: seq<Particle>, k: nat): (r: seq<Ranked<Particle>>)
    requires k < |s|
    ensures |r| <= 2
    ensures forall e :: e in r ==> e.index != k && e.index < |s| && e == RankedAt(math, s, k, e.index)
    ensures forall e :: e in r ==> Qualifies(math, AheadHalfPlane, s[k], s[e.index])
  {
    var sorted := SortByKey(Candidates(math, AheadHalfPlane, s, k, |s|));
    if |sorted| <= 2 then sorted else sorted[..2]
  }

  /** Front colliders come out ascending by distance, ties in list order. */
  lemma FrontCollidersSorted(math: MathLib, s: seq<Particle>, k: nat)
    requires k < |s|
    ensures Ascending(FrontCollidersOf(math, s, k))
    ensures StablyAscending(FrontCollidersOf(math, s, k))
  {
    SortByKeySorted(Candidates(math, FrontColliders, s, k, |s|));
  }

  /**
    The two nearest: ascending by distance; if fewer than two are returned, every
    qualifying particle is among them; and no qualifying particle left out is nearer
    than one returned.
  */
  lemma TwoNearestFrontSelection(math: MathLib, s: seq<Particle>, k: nat)
    requires k < |s|
    ensures var r := TwoNearestFront(math, s, k);
      && StablyAscending(r)
      && (|r| < 2 ==> forall j :: 0 <= j < |s| && j != k && Qualifies(math, AheadHalfPlane, s[k], s[j]) ==>
            RankedAt(math, s, k, j) in r)
      && (forall j, e ::
            (&& 0 <= j < |s| && j != k && Qualifies(math, AheadHalfPlane, s[k], s[j])
             && RankedAt(math, s, k, j) !in r && e in r) ==>
            e.key <= Separation(math, s[k], s[j]))
  {
    var candidates := Candidates(math, AheadHalfPlane, s, k, |s|);
    var sorted := SortByKey(candidates);
    SortByKeySorted(candidates);
    var r := TwoNearestFront(math, s, k);
    if |sorted| > 2 {
      forall j, e | 0 <= j < |s| && j != k && Qualifies(math, AheadHalfPlane, s[k], s[j])
          && RankedAt(math, s, k, j) !in r && e in r
        ensures e.key <= Separation(math, s[k], s[j])
      {
        var x := RankedAt(math, s, k, j);
        assert x in sorted;
        var b :| 0 <= b < |sorted| && sorted[b] == x;
        var a :| 0 <= a < |r| && r[a] == e;
        assert sorted[a] == e;
      }
    }
  }

  /** The left-to-right sum of f over the ranked items, as the rulesets' accumulation loops compute it. */
  function SumOf<T>(rs: seq<Ranked<T>>, f: T -> Vector2D): Vector2D {
    if |rs| == 0 then Zero else SumOf(rs[..|rs| - 1], f).Add(f(rs[|rs| - 1].item))
  }

  lemma {:induction false} SumOfAppend<T>(a: seq<Ranked<T>>, b: seq<Ranked<T>>, f: T -> Vector2D)
    ensures SumOf(a + b, f) == SumOf(a, f).Add(SumOf(b, f))
    decreases |b|
  {
    if |b| == 0 {
      assert a + b == a;
    } else {
      var last := |b| - 1;
      assert (a + b)[..|a + b| - 1] == a + b[..last];
      SumOfAppend(a, b[..last], f);
    }
  }

  /** Removing one element from the sum. */
  lemma {:induction false} SumOfRemove<T>(s: seq<Ranked<T>>, i: nat, f: T -> Vector2D)
    requires i < |s|
    ensures SumOf(s, f) == SumOf(s[..i] + s[i + 1..], f).Add(f(s[i].item))
  {
    assert s == s[..i] + ([s[i]] + s[i + 1..]);
    SumOfAppend(s[..i], [s[i]] + s[i + 1..], f);
    SumOfAppend([s[i]], s[i + 1..], f);
    assert SumOf([s[i]], f) == Zero.Add(f(s[i].item));
    SumOfAppend(s[..i], s[i + 1..], f);
  }

  /** The sum does not depend on the order of the items. */
  lemma {:induction false} SumOfPermutation<T>(a: seq<Ranked<T>>, b: seq<Ranked<T>>, f: T -> Vector2D)
    requires multiset(a) == multiset(b)
    ensures SumOf(a, f) == SumOf(b, f)
    decreases |a|
  {
    if |a| > 0 {
      var last := a[|a| - 1];
      assert a == a[..|a| - 1] + [last];
      assert last in multiset(b);
      var i :| 0 <= i < |b| && b[i] == last;
      var rest := b[..i] + b[i + 1..];
      assert b == b[..i] + [b[i]] + b[i + 1..];
      assert multiset(b) == multiset(rest) + multiset{last};
      assert multiset(a) == multiset(a[..|a| - 1]) + multiset{last};
      assert multiset(a[..|a| - 1]) == multiset(a) - multiset{last};
      assert multiset(rest) == multiset(b) - multiset{last};
      SumOfPermutation(a[..|a| - 1], rest, f);
      SumOfRemove(b, i, f);
    }
  }
}

=== FILE: optional.dfy ===
/** An optional value: Java's null or NaN outcomes made explicit. */
module Optional {

  datatype Option<+T> = None | Some(value: T)
}

=== FILE: ordering.dfy ===
/**
  Stable sorting by a real-valued key, the behaviour of List.sort and Stream.sorted
  with Comparator.comparingDouble: the result is ascending in the key, and elements
  with equal keys keep their original relative order.
*/
module Ordering {

  /** An element of a list together with its position in the list it was drawn from and its sort key. */
  datatype Ranked<T> = Ranked(index: nat, item: T, key: real)

  predicate Ascending<T>(s: seq<Ranked<T>>) {
    forall i, j :: 0 <= i < j < |s| ==> s[i].key <= s[j].key
  }

  /** Positions in the original list strictly increase along s. */
  predicate IndexIncreasing<T>(s: seq<Ranked<T>>) {
    forall i, j :: 0 <= i < j < |s| ==> s[i].index < s[j].index
  }

  /** a sorts before b: a smaller key, or an equal key and an earlier original position. */
  predicate Before<T>(a: Ranked<T>, b: Ranked<T>) {
    a.key < b.key || (a.key == b.key && a.index < b.index)
  }

  /** Strictly ascending in (key, index): what a stable sort of an index-increasing list yields. */
  predicate StablyAscending<T>(s: seq<Ranked<T>>) {
    forall i, j :: 0 <= i < j < |s| ==> Before(s[i], s[j])
  }

  /**
    Inserts x in front of the first element whose key is not below x's key, so x
    precedes the elements with an equal key.
  */
  function Insert<T(==, !new)>(x: Ranked<T>, s: seq<Ranked<T>>): (r: seq<Ranked<T>>)
    ensures |r| == |s| + 1
    ensures multiset(r) == multiset(s) + multiset{x}
    ensures forall e :: e in r <==> e in s || e == x
  {
    if |s| == 0 then [x]
    else if x.key <= s[0].key then [x] + s
    else
      assert s == [s[0]] + s[1..];
      [s[0]] + Insert(x, s[1..])
  }

  /** Inserting into an ascending list keeps it ascending. */
  lemma {:induction false} InsertAscending<T(!new)>(x: Ranked<T>, s: seq<Ranked<T>>)
    requires Ascending(s)
    ensures Ascending(Insert(x, s))
  {
    if |s| > 0 && x.key > s[0].key {
      var rest := Insert(x, s[1..]);
      InsertAscending(x, s[1..]);
      forall e | e in rest
        ensures s[0].key <= e.key
      {
        if e != x {
          var k :| 0 <= k < |s[1..]| && s[1..][k] == e;
          assert s[k + 1] == e;
        }
      }
      var r := [s[0]] + rest;
      forall i, j | 0 <= i < j < |r|
        ensures r[i].key <= r[j].key
      {
        if i == 0 {
          assert r[j] == rest[j - 1];
          assert r[j] in rest;
        } else {
          assert r[i] == rest[i - 1] && r[j] == rest[j - 1];
        }
      }
    }
  }

  /** Inserting an element that precedes every element of a stably ascending list keeps it stably ascending. */
  lemma {:induction false} InsertStable<T(!new)>(x: Ranked<T>, s: seq<Ranked<T>>)
    requires StablyAscending(s)
    requires forall e :: e in s ==> x.index < e.index
    ensures StablyAscending(Insert(x, s))
  {
    if |s| > 0 && x.key > s[0].key {
      var rest := Insert(x, s[1..]);
      InsertStable(x, s[1..]);
      forall e | e in rest
        ensures Before(s[0], e)
      {
        if e != x {
          var k :| 0 <= k < |s[1..]| && s[1..][k] == e;
          assert s[k + 1] == e;
        }
      }
      var r := [s[0]] + rest;
      forall i, j | 0 <= i < j < |r|
        ensures Before(r[i], r[j])
      {
        if i == 0 {
          assert r[j] == rest[j - 1];
          assert r[j] in rest;
        } else {
          assert r[i] == rest[i - 1] && r[j] == rest[j - 1];
        }
      }
    } else if |s| > 0 {
      var r := [x] + s;
      forall i, j | 0 <= i < j < |r|
        ensures Before(r[i], r[j])
      {
        if i == 0 {
          assert r[j] == s[j - 1];
          assert s[0].key <= r[j].key;
          assert r[j] in s;
        } else {
          assert r[i] == s[i - 1] && r[j] == s[j - 1];
        }
      }
    }
  }

  /** Insertion sort: the first element is inserted into the sorted remainder, ahead of equal keys. */
  function SortByKey<T(==, !new)>(s: seq<Ranked<T>>): (r: seq<Ranked<T>>)
    ensures |r| == |s|
    ensures multiset(r) == multiset(s)
    ensures forall e :: e in r <==> e in s
  {
    if |s| == 0 then []
    else
      assert s == [s[0]] + s[1..];
      Insert(s[0], SortByKey(s[1..]))
  }

  /**
    The sorted list is ascending by key, and when the input's original positions
    increase, elements with equal keys keep their original order.
  */
  lemma {:induction false} SortByKeySorted<T(!new)>(s: seq<Ranked<T>>)
    ensures Ascending(SortByKey(s))
    ensures IndexIncreasing(s) ==> StablyAscending(SortByKey(s))
  {
    if |s| > 0 {
      var sorted := SortByKey(s[1..]);
      SortByKeySorted(s[1..]);
      InsertAscending(s[0], sorted);
      if IndexIncreasing(s) {
        forall e | e in sorted
          ensures s[0].index < e.index
        {
          var k :| 0 <= k < |s[1..]| && s[1..][k] == e;
          assert s[k + 1] == e;
        }
        InsertStable(s[0], sorted);
      }
    }
  }
}

=== FILE: parameters.dfy ===
/** Physical constants of the corridor simulation (units: metres, seconds). */
module Parameters {

  /** Default time step, one thirty-third of a second. */
  const DT: real := 1.0 / 33.0

  /** Bounds of the personal-space radius. */
  const R_MIN: real := 0.1
  const R_MAX: real := 0.35

  /** Desired (free-walking) speed. */
  const V_D: real := 1.5

  /** Corridor length and width; particles live in y in [0, W]. */
  const L: real := 16.0
  const W: real := 3.6

  /** Exponent of the speed/radius law and relaxation time of the radius. */
  const BETA: real := 0.9
  const TAU: real := 0.5

  /** Amplitude and decay length of the particle avoidance term. */
  const A_P: real := 1.1
  const B_P: real := 2.1

  /** Amplitude and decay length of the wall avoidance term. */
  const A_W: real := 1215.0
  const B_W: real := 0.025

  const PARTICLES_PER_SIDE: int := 100

  /** The radius interval is non-empty, so the speed law never divides by zero. */
  lemma RadiusBoundsWellFormed()
    ensures 0.0 < R_MIN < R_MAX
    ensures R_MAX - R_MIN != 0.0
  {
  }

  /** One free step grows the radius by a strictly positive amount. */
  lemma GrowthStepPositive()
    ensures 0.0 < DT && 0.0 < TAU
    ensures 0.0 < R_MAX * DT / TAU
  {
  }

  /** A particle of maximal radius fits between the two walls. */
  lemma CorridorFitsMaxRadius()
    ensures 2.0 * R_MAX < W
  {
  }

  /** The decay lengths are positive, so both exponents -d/B are defined. */
  lemma DecayLengthsPositive()
    ensures 0.0 < B_P && 0.0 < B_W
    ensures 0.0 < A_P && 0.0 < A_W
  {
  }
}

=== FILE: particle.dfy ===
/** The state of one pedestrian, reconstructed from the fields the rulesets read and write. */
module Particles {
  import opened Parameters
  import opened Vectors

  /** id and goesLeft are fixed for life; position, velocity and radius change once per tick. */
  datatype Particle = Particle(
    id: int,
    position: Vector2D,
    velocity: Vector2D,
    radius: real,
    goesLeft: bool)

  /** The desired heading: a unit vector along -x for particles going left, +x otherwise. */
  function Desired(goesLeft: bool): (d: Vector2D)
    ensures d.y == 0.0 && (d.x == 1.0 || d.x == -1.0)
    ensures d.x < 0.0 <==> goesLeft
  {
    Vector2D(if goesLeft then -1.0 else 1.0, 0.0)
  }

  predicate RadiusInRange(r: real) {
    R_MIN <= r <= R_MAX
  }

  predicate AllRadiiInRange(ps: seq<Particle>) {
    forall k :: 0 <= k < |ps| ==> RadiusInRange(ps[k].radius)
  }

  /** Two lists hold the same agents in the same order: ids and directions agree index by index. */
  predicate SameAgents(a: seq<Particle>, b: seq<Particle>) {
    && |a| == |b|
    && forall k :: 0 <= k < |a| ==> a[k].id == b[k].id && a[k].goesLeft == b[k].goesLeft
  }

  /** One explicit Euler step of a position. */
  function Advance(position: Vector2D, velocity: Vector2D, dt: real): (r: Vector2D)
    ensures r.Subtract(position) == velocity.Scale(dt)
    ensures dt == 0.0 ==> r == position
  {
    position.Add(velocity.Scale(dt))
  }
}

=== FILE: reals.dfy ===
/** Facts about real multiplication and division that the solver does not find unaided. */
module RealArith {

  /**
    Applying a function to two arithmetically equal arguments. The solver may
    normalise an equation between polynomials away before it can use it for
    congruence; passing the arguments through a lemma keeps the equation.
  */
  lemma Congruent(f: real -> real, a: real, b: real)
    requires a == b
    ensures f(a) == f(b)
  {
  }

  lemma MulPos(a: real, b: real)
    requires 0.0 < a && 0.0 < b
    ensures 0.0 < a * b
  {
  }

  lemma MulNonneg(a: real, b: real)
    requires 0.0 <= a && 0.0 <= b
    ensures 0.0 <= a * b
  {
  }

  lemma ProductZero(a: real, b: real)
    ensures a * b == 0.0 <==> a == 0.0 || b == 0.0
  {
  }

  lemma SquareNonneg(a: real)
    ensures 0.0 <= a * a
    ensures a * a == 0.0 <==> a == 0.0
    ensures (-a) * (-a) == a * a
  {
    ProductZero(a, a);
  }

  lemma NegSquare(a: real, b: real)
    requires b == -a
    ensures b * b == a * a
  {
  }

  /** The square of a, as a term of its own (the solver rewrites 0 < a * a into a != 0 and then loses it). */
  function Sq(a: real): real {
    a * a
  }

  lemma SquarePos(a: real)
    requires a != 0.0
    ensures 0.0 < Sq(a)
  {
    ProductZero(a, a);
    assert Sq(a) != 0.0;
    assert Sq(a) >= 0.0;
  }

  /** Multiplying by a positive factor preserves strict order. */
  lemma MulStrict(a: real, b: real, c: real)
    requires 0.0 < c && a < b
    ensures a * c < b * c
  {
    MulPos(b - a, c);
  }

  /** A positive number times a factor above one grows. */
  lemma AboveOne(q: real, p: real, d: real)
    requires 0.0 < p && 1.0 < q && q * p == d
    ensures p < d
  {
    MulPos(q - 1.0, p);
  }

  /** Squaring is monotone on the non-negative reals. */
  lemma SquareMonotone(a: real, b: real)
    requires 0.0 <= a <= b
    ensures a * a <= b * b
    ensures a < b ==> a * a < b * b
  {
    MulNonneg(b - a, b + a);
    if a < b {
      MulPos(b - a, b + a);
    }
  }

  /** Dividing and multiplying back by the same non-zero number. */
  lemma DivMul(a: real, b: real)
    requires b != 0.0
    ensures (a / b) * b == a
  {
  }

  /** Cancelling a non-zero factor. */
  lemma MulCancel(a: real, b: real, c: real)
    requires c != 0.0 && a * c == b * c
    ensures a == b
  {
    ProductZero(a - b, c);
  }

  lemma DivSquare(x: real, m: real)
    requires m != 0.0
    ensures (x / m) * (x / m) * (m * m) == x * x
  {
    var a := x / m;
    assert a * m == x;
  }

  /** The components of (x, y) / m have squares summing to one when m^2 = x^2 + y^2. */
  lemma UnitComponents(x: real, y: real, m: real)
    requires m != 0.0 && m * m == x * x + y * y
    ensures (x / m) * (x / m) + (y / m) * (y / m) == 1.0
    ensures x * (x / m) + y * (y / m) == m
  {
    DivSquare(x, m);
    DivSquare(y, m);
    ProductZero(m, m);
    MulCancel((x / m) * (x / m) + (y / m) * (y / m), 1.0, m * m);
    DivMul(x, m);
    DivMul(y, m);
    MulCancel(x * (x / m) + y * (y / m), m, m);
  }

  /** A number q with q * p == d, where d is bounded in square by p > 0, lies in [-1, 1]. */
  lemma UnitRatio(d: real, p: real, q: real)
    requires 0.0 < p && d * d <= p * p && q * p == d
    ensures -1.0 <= q <= 1.0
  {
    if 1.0 < q {
      AboveOne(q, p, d);
      SquareMonotone(p, d);
    } else if q < -1.0 {
      AboveOne(-q, p, -d);
      SquareMonotone(p, -d);
      SquareNonneg(d);
    }
  }

  /** A quadratic a s^2 + b s + c with a >= 0 that is non-positive somewhere has a non-negative discriminant. */
  lemma DiscriminantFromPoint(a: real, b: real, c: real, s: real)
    requires 0.0 <= a && a * (s * s) + b * s + c <= 0.0
    ensures 0.0 <= b * b - 4.0 * a * c
  {
    var q := a * (s * s) + b * s + c;
    MulNonneg(a, -q);
    var t := 2.0 * a * s + b;
    SquareNonneg(t);
    assert b * b - 4.0 * a * c == t * t - 4.0 * (a * q);
  }

  /** With a > 0 and a non-negative discriminant, the quadratic is non-positive at its vertex s = -b / 2a. */
  lemma VertexInside(a: real, b: real, c: real, s: real)
    requires 0.0 < a && 0.0 <= b * b - 4.0 * a * c && s * (2.0 * a) == -b
    ensures a * (s * s) + b * s + c <= 0.0
  {
    var q := a * (s * s) + b * s + c;
    assert 4.0 * a * q == 4.0 * a * c - b * b;
    if 0.0 < q {
      MulPos(4.0 * a, q);
    }
  }
}

=== FILE: scenarios.dfy ===
/**
  Concrete situations worked through the model: what one tick does to two particles
  meeting head-on on the bottom wall under CPM, and to a lone particle close to the
  bottom wall under ACPM and AACPM.
*/
module Scenarios {
  import opened RealArith
  import opened Parameters
  import opened Transcendental
  import opened Vectors
  import opened Particles
  import opened Neighbours
  import opened Motion
  import CpmRuleset
  import AcpmRuleset
  import AacpmRuleset
  import InPlace

  /** Two collapsed particles on the line y = 0, 0.15 apart, walking towards each other. */
  function HeadOnPair(): (s: seq<Particle>)
    ensures |s| == 2 && s[0].position.y == 0.0 && s[1].position.y == 0.0
    ensures s[0].radius == R_MIN && s[1].radius == R_MIN
    ensures s[0].goesLeft != s[1].goesLeft
  {
    [ Particle(0, Vector2D(0.0, 0.0), Vector2D(V_D, 0.0), R_MIN, false),
      Particle(1, Vector2D(0.15, 0.0), Vector2D(-V_D, 0.0), R_MIN, true) ]
  }

  /**
    On y = 0 both particles lie within their radius of the bottom wall, so the wall
    override decides for both: after one CPM tick they both move straight up at V_D
    with radius R_MIN, rather than apart from each other.
  */
  lemma CpmHeadOnAtBottomWall(math: MathLib, dt: real)
    ensures var r := InPlace.Sweep(InPlace.StepOf(math, InPlace.Cpm, dt), HeadOnPair(), 2);
      && r[0].velocity == Vector2D(0.0, V_D) && r[0].radius == R_MIN
      && r[1].velocity == Vector2D(0.0, V_D) && r[1].radius == R_MIN
  {
    var step := InPlace.StepOf(math, InPlace.Cpm, dt);
    var s := HeadOnPair();
    var s1 := InPlace.Sweep(step, s, 1);
    InPlace.SweepSettled(step, s, 2, 0);
    InPlace.SweepSettled(step, s, 2, 1);
    assert s1[1] == s[1];
    CpmRuleset.WallOverride(math, s, 0, dt);
    CpmRuleset.WallOverride(math, s1, 1, dt);
  }

  /** A particle alone has no front colliders. */
  lemma AloneHasNoColliders(math: MathLib, p: Particle)
    ensures FrontCollidersOf(math, [p], 0) == []
  {
  }

  /** The positive y component of a vector survives normalisation. */
  lemma NormalizeKeepsUp(math: MathLib, v: Vector2D)
    requires SqrtLaws(math) && 0.0 < v.y
    ensures 0.0 < v.Normalize(math).y
  {
    var e := v.Normalize(math);
    var m := v.Magnitude(math);
    NormalizeUnit(math, v);
    MagnitudeLaws(math, v);
    assert e.Scale(m).y == v.y;
    if e.y <= 0.0 {
      MulNonneg(-e.y, m);
    }
  }

  /** A lone particle's repulsion is the bottom-wall term alone. */
  lemma LoneRepulsionNearBottomWall(math: MathLib, p: Particle)
    requires p.position.y < R_MIN
    ensures AcpmRuleset.Repulsion(math, [p], 0) == Vector2D(0.0, 1.0)
  {
    AloneHasNoColliders(math, p);
  }

  /** Moving at V_D along a direction with a positive y component goes up. */
  lemma ContactVelocityUp(math: MathLib, direction: Vector2D)
    requires SqrtLaws(math) && 0.0 < direction.y
    ensures 0.0 < ContactVelocity(math, direction).y
  {
    NormalizeKeepsUp(math, direction);
    MulPos(direction.Normalize(math).y, V_D);
  }

  /**
    A lone particle closer than R_MIN to the bottom wall is in contact under ACPM and
    is pushed off the wall: its new velocity has a positive y component.
  */
  lemma AcpmLoneParticleNearBottomWall(math: MathLib, p: Particle, dt: real)
    requires SqrtLaws(math) && p.position.y < R_MIN
    ensures AcpmRuleset.InContact(math, [p], 0)
    ensures 0.0 < AcpmRuleset.Next(math, [p], 0, dt).velocity.y
  {
    LoneRepulsionNearBottomWall(math, p);
    AcpmRuleset.ContactMotion(math, [p], 0, dt);
    ContactVelocityUp(math, Vector2D(0.0, 1.0).Add(Desired(p.goesLeft)));
  }

  /** AACPM decides contact as ACPM does, so the same lone particle is pushed up there too. */
  lemma AacpmLoneParticleNearBottomWall(math: MathLib, p: Particle)
    requires SqrtLaws(math) && p.position.y < R_MIN
    ensures 0.0 < AacpmRuleset.Next(math, [p], 0).velocity.y
  {
    AcpmLoneParticleNearBottomWall(math, p, DT);
    AacpmRuleset.ContactAsAcpm(math, [p], 0);
  }
}

=== FILE: sweep.dfy ===
/**
  updateParticles of Naive, CPM and ACPM: one pass over the list that overwrites each
  particle in turn, so particle k's update reads the already-updated particles 0..k-1
  and the not-yet-updated particles k+1.. .
*/
module InPlace {
  import opened Parameters
  import opened Transcendental
  import opened Vectors
  import opened Particles
  import NaiveRuleset
  import CpmRuleset
  import AcpmRuleset

  datatype InPlaceRuleset = Naive | Cpm | Acpm

  /** The new state of particle k, decided by the chosen ruleset from the list as it stands. */
  function NextOf(math: MathLib, rules: InPlaceRuleset, s: seq<Particle>, k: nat, dt: real): (q: Particle)
    requires k < |s|
    ensures q.id == s[k].id && q.goesLeft == s[k].goesLeft
    ensures RadiusInRange(s[k].radius) && 0.0 <= dt ==> RadiusInRange(q.radius)
  {
    match rules
    case Naive => NaiveRuleset.Next(s, k, dt)
    case Cpm =>
      CpmRuleset.NextRadiusInRange(math, s, k, dt);
      CpmRuleset.Next(math, s, k, dt)
    case Acpm =>
      AcpmRuleset.NextRadiusInRange(math, s, k, dt);
      AcpmRuleset.Next(math, s, k, dt)
  }

  /** A per-particle update rule: the new state of particle i, read from the list t. */
  type Step = (seq<Particle>, nat) --> Particle

  /** The rule is defined on every index of every list. */
  ghost predicate Total(step: Step) {
    forall t: seq<Particle>, i: nat :: i < |t| ==> step.requires(t, i)
  }

  /** The rule keeps each particle's identity and exit. */
  ghost predicate KeepsAgents(step: Step)
    requires Total(step)
  {
    forall t: seq<Particle>, i: nat :: i < |t| ==> step(t, i).id == t[i].id && step(t, i).goesLeft == t[i].goesLeft
  }

  /** The rule keeps every radius in [R_MIN, R_MAX]. */
  ghost predicate KeepsRadii(step: Step)
    requires Total(step)
  {
    forall t: seq<Particle>, i: nat :: i < |t| && RadiusInRange(t[i].radius) ==> RadiusInRange(step(t, i).radius)
  }

  /** The chosen ruleset as a step with a fixed time step. */
  function StepOf(math: MathLib, rules: InPlaceRuleset, dt: real): (step: Step)
    ensures Total(step) && KeepsAgents(step)
    ensures 0.0 <= dt ==> KeepsRadii(step)
  {
    (t: seq<Particle>, i: nat) requires i < |t| => NextOf(math, rules, t, i, dt)
  }

  /** The list after the first n iterations of the for-loop over the particles. */
  function Sweep(step: Step, s: seq<Particle>, n: nat): (r: seq<Particle>)
    requires Total(step) && n <= |s|
    ensures |r| == |s|
    ensures KeepsAgents(step) ==> SameAgents(s, r)
    ensures forall j :: n <= j < |s| ==> r[j] == s[j]
  {
    if n == 0 then s
    else
      var before := Sweep(step, s, n - 1);
      before[n - 1 := step(before, n - 1)]
  }

  /**
    The for-loop of updateParticles: the list keeps its length and its agents, and
    every particle has been replaced by its update as the sweep computes it.
  */
  method UpdateParticles(step: Step, particles: seq<Particle>) returns (next: seq<Particle>)
    requires Total(step)
    ensures next == Sweep(step, particles, |particles|)
  {
    next := particles;
    for i := 0 to |particles|
      invariant next == Sweep(step, particles, i)
    {
      next := next[i := step(next, i)];
    }
  }

  /**
    In-place semantics: once the sweep has passed particle k, its state is the update
    computed from the list in which exactly the particles before k had been updated.
  */
  lemma {:induction false} SweepSettled(step: Step, s: seq<Particle>, n: nat, k: nat)
    requires Total(step) && k < n <= |s|
    ensures Sweep(step, s, n)[k] == step(Sweep(step, s, k), k)
    decreases n
  {
    if k < n - 1 {
      SweepSettled(step, s, n - 1, k);
    }
  }

  /** A rule that keeps radii in [R_MIN, R_MAX] keeps them there over the sweep. */
  lemma {:induction false} SweepRadiiInRange(step: Step, s: seq<Particle>, n: nat)
    requires Total(step) && KeepsRadii(step)
    requires n <= |s| && AllRadiiInRange(s)
    ensures AllRadiiInRange(Sweep(step, s, n))
  {
    if n > 0 {
      SweepRadiiInRange(step, s, n - 1);
    }
  }

  /**
    Naive updates are independent of each other: after the sweep each particle is its
    own Euler step, whatever the order of the list.
  */
  lemma {:induction false} NaiveSweepPointwise(math: MathLib, s: seq<Particle>, dt: real, n: nat, k: nat)
    requires k < n <= |s|
    ensures Sweep(StepOf(math, Naive, dt), s, n)[k] == NaiveRuleset.Next(s, k, dt)
  {
    SweepSettled(StepOf(math, Naive, dt), s, n, k);
  }

  /** Naive with dt = 0 leaves the list unchanged. */
  lemma {:induction false} NaiveStandStill(math: MathLib, s: seq<Particle>, n: nat)
    requires n <= |s|
    ensures Sweep(StepOf(math, Naive, 0.0), s, n) == s
  {
    if n > 0 {
      NaiveStandStill(math, s, n - 1);
    }
  }
}

=== FILE: transcendental.dfy ===
/**
  The java.lang.Math functions the rulesets call. Their values are not modelled:
  a MathLib is a bundle of uninterpreted functions, and each ghost predicate below
  names the few facts of the real function that some proof relies on. A lemma
  that needs a fact requires the corresponding predicate.
*/
module Transcendental {
  import opened RealArith

  datatype MathLib = MathLib(
    sqrt: real -> real,
    atan2: (real, real) -> real,
    sin: real -> real,
    cos: real -> real,
    exp: real -> real,
    pow: (real, real) -> real,
    acos: real -> real,
    pi: real)

  /** The non-negative square root. */
  ghost predicate SqrtLaws(math: MathLib) {
    forall x :: 0.0 <= x ==> 0.0 <= math.sqrt(x) && math.sqrt(x) * math.sqrt(x) == x
  }

  /** Pythagoras, and the values at zero. */
  ghost predicate TrigLaws(math: MathLib) {
    && (forall a :: math.cos(a) * math.cos(a) + math.sin(a) * math.sin(a) == 1.0)
    && math.cos(0.0) == 1.0
    && math.sin(0.0) == 0.0
  }

  /** Parity of cos and sin at one angle. */
  ghost predicate TrigParityAt(math: MathLib, a: real) {
    math.cos(-a) == math.cos(a) && math.sin(-a) == -math.sin(a)
  }

  ghost predicate ExpLaws(math: MathLib) {
    forall x :: 0.0 < math.exp(x)
  }

  /** A power of a non-negative base is non-negative, and positive for a positive base. */
  ghost predicate PowLaws(math: MathLib) {
    forall b, e :: 0.0 <= b ==> 0.0 <= math.pow(b, e) && (0.0 < b ==> 0.0 < math.pow(b, e))
  }

  /** Range and quadrant facts of atan2(y, x), with atan2(0, 0) = 0. */
  ghost predicate Atan2Laws(math: MathLib) {
    && 0.0 < math.pi
    && forall y, x ::
         && -math.pi < math.atan2(y, x) <= math.pi
         && (0.0 < x ==> -math.pi / 2.0 < math.atan2(y, x) < math.pi / 2.0)
         && (x == 0.0 ==> math.atan2(y, x) == (if 0.0 < y then math.pi / 2.0 else if y < 0.0 then -math.pi / 2.0 else 0.0))
         && (x < 0.0 ==> math.atan2(y, x) < -math.pi / 2.0 || math.pi / 2.0 < math.atan2(y, x))
  }

  /** The absolute value of x. */
  function Abs(x: real): (r: real)
    ensures 0.0 <= r
    ensures r == x || r == -x
  {
    if x < 0.0 then -x else x
  }

  /** The square root of the square of a non-negative number is that number. */
  lemma SqrtUnique(math: MathLib, x: real, r: real)
    requires SqrtLaws(math)
    requires 0.0 <= r && r * r == x
    ensures math.sqrt(x) == r
  {
    var s := math.sqrt(x);
    assert 0.0 <= s && s * s == x;
    if s < r {
      SquareMonotone(s, r);
    } else if r < s {
      SquareMonotone(r, s);
    }
  }

  /** The laws at one argument, and sqrt(x) == 0 exactly when x == 0. */
  lemma SqrtAt(math: MathLib, x: real)
    requires SqrtLaws(math)
    requires 0.0 <= x
    ensures 0.0 <= math.sqrt(x) && math.sqrt(x) * math.sqrt(x) == x
    ensures math.sqrt(x) == 0.0 <==> x == 0.0
  {
    var s := math.sqrt(x);
    assert s * s == x;
    if x == 0.0 {
      SqrtUnique(math, 0.0, 0.0);
    }
  }

  /** Comparing a square root with a bound is comparing squares. */
  lemma SqrtBelow(math: MathLib, x: real, b: real)
    requires SqrtLaws(math)
    requires 0.0 <= x
    ensures math.sqrt(x) < b <==> 0.0 < b && x < b * b
  {
    var s := math.sqrt(x);
    assert 0.0 <= s && s * s == x;
    if s < b {
      SquareMonotone(s, b);
    } else if 0.0 < b {
      SquareMonotone(b, s);
    }
  }

  /** The closed quarter-turn test on atan2 is the sign of its x argument. */
  lemma Atan2ClosedHalfPlane(math: MathLib, y: real, x: real)
    requires Atan2Laws(math)
    ensures Abs(math.atan2(y, x)) <= math.pi / 2.0 <==> 0.0 <= x
    ensures !(math.atan2(y, x) < -math.pi / 2.0 || math.atan2(y, x) > math.pi / 2.0) <==> 0.0 <= x
  {
  }

  /** The open quarter-turn test on atan2: x positive, or both arguments zero. */
  lemma Atan2OpenHalfPlane(math: MathLib, y: real, x: real)
    requires Atan2Laws(math)
    ensures Abs(math.atan2(y, x)) < math.pi / 2.0 <==> 0.0 < x || (x == 0.0 && y == 0.0)
  {
  }
}

=== FILE: vector2d.dfy ===
/** Immutable two-dimensional vectors over the reals. */
module Vectors {
  import opened Transcendental
  import opened Optional
  import opened RealArith

  datatype Vector2D = Vector2D(x: real, y: real) {

    function Add(v: Vector2D): Vector2D {
      Vector2D(x + v.x, y + v.y)
    }

    function Subtract(v: Vector2D): Vector2D {
      Vector2D(x - v.x, y - v.y)
    }

    function Scale(s: real): Vector2D {
      Vector2D(x * s, y * s)
    }

    function Dot(v: Vector2D): real {
      x * v.x + y * v.y
    }

    /** The scalar 2D cross product, positive when v lies counter-clockwise of this. */
    function Cross(v: Vector2D): real {
      x * v.y - y * v.x
    }

    /** The square root of x*x + y*y, which is this.Dot(this). */
    function Magnitude(math: MathLib): real {
      math.sqrt(Dot(this))
    }

    /** The unit vector along this one; the zero vector is returned as is, without dividing. */
    function Normalize(math: MathLib): (r: Vector2D)
      ensures this == Zero ==> r == Zero
      ensures Cross(r) == 0.0
    {
      var mag := Magnitude(math);
      if mag == 0.0 then Zero
      else
        var r := Vector2D(x / mag, y / mag);
        assert x * r.y == y * r.x by {
          assert x * (y / mag) == (x * y) / mag == y * (x / mag);
        }
        r
    }

    function DistanceTo(math: MathLib, v: Vector2D): real {
      Subtract(v).Magnitude(math)
    }

    /** Counter-clockwise rotation by angle (radians). */
    function Rotate(math: MathLib, angle: real): Vector2D {
      var cos := math.cos(angle);
      var sin := math.sin(angle);
      Vector2D(cos * x - sin * y, sin * x + cos * y)
    }

    /** Rotation by a quarter turn counter-clockwise. */
    function Perpendicular(): (r: Vector2D)
      ensures Dot(r) == 0.0
      ensures r.Dot(r) == Dot(this)
      ensures Cross(r) == Dot(this)
    {
      Vector2D(-y, x)
    }

    /**
      The unsigned angle between this and other. The cosine is clamped into [-1, 1]
      before acos; when either vector has zero magnitude the quotient is 0/0, which is
      NaN in floating point, and the result here is None.
    */
    function AngleWith(math: MathLib, other: Vector2D): (r: Option<real>)
      ensures r.Some? ==> exists c :: -1.0 <= c <= 1.0 && r.value == math.acos(c)
    {
      var norm1 := other.Magnitude(math);
      var norm2 := Magnitude(math);
      if norm1 == 0.0 || norm2 == 0.0 then None
      else Some(math.acos(ClampUnit(Cosine(Dot(other), norm1, norm2))))
    }

    /** The signed angle that turns this onto other, as atan2(cross, dot), in (-pi, pi]. */
    function SignedAngleTo(math: MathLib, other: Vector2D): real {
      math.atan2(Cross(other), Dot(other))
    }
  }

  const Zero: Vector2D := Vector2D(0.0, 0.0)

  /** The cosine of the angle between two vectors from their dot product and magnitudes. */
  function Cosine(dot: real, norm1: real, norm2: real): real
    requires norm1 != 0.0 && norm2 != 0.0
  {
    dot / (norm1 * norm2)
  }

  /** c clamped to [-1, 1]. */
  function ClampUnit(c: real): (r: real)
    ensures -1.0 <= r <= 1.0
    ensures -1.0 <= c <= 1.0 ==> r == c
    ensures c < -1.0 ==> r == -1.0
    ensures 1.0 < c ==> r == 1.0
  {
    var upper := if c < 1.0 then c else 1.0;
    if -1.0 < upper then upper else -1.0
  }

  lemma AddSubtractRoundTrip(v: Vector2D, w: Vector2D)
    ensures v.Add(w).Subtract(w) == v
    ensures v.Subtract(w).Add(w) == v
  {
  }

  lemma AddCommutative(v: Vector2D, w: Vector2D)
    ensures v.Add(w) == w.Add(v)
  {
  }

  lemma ScaleByOneAndZero(v: Vector2D)
    ensures v.Scale(1.0) == v
    ensures v.Scale(0.0) == Zero
  {
  }

  /** Scaling multiplies the squared length by the square of the factor. */
  lemma ScaleSquaredLength(v: Vector2D, s: real)
    ensures v.Scale(s).Dot(v.Scale(s)) == s * s * v.Dot(v)
  {
    assert (v.x * s) * (v.x * s) == s * s * (v.x * v.x);
    assert (v.y * s) * (v.y * s) == s * s * (v.y * v.y);
  }

  lemma DotCrossSymmetries(v: Vector2D, w: Vector2D)
    ensures v.Dot(w) == w.Dot(v)
    ensures v.Cross(w) == -w.Cross(v)
    ensures v.Cross(v) == 0.0
  {
  }

  lemma PerpendicularTwice(v: Vector2D)
    ensures v.Perpendicular().Perpendicular() == v.Scale(-1.0)
  {
  }

  /** Lagrange's identity in the plane: |v|^2 |w|^2 = (v.w)^2 + (v x w)^2. */
  lemma Lagrange(v: Vector2D, w: Vector2D)
    ensures v.Dot(v) * w.Dot(w) == v.Dot(w) * v.Dot(w) + v.Cross(w) * v.Cross(w)
  {
  }

  lemma SquaredLengthZero(v: Vector2D)
    ensures 0.0 <= v.Dot(v)
    ensures v.Dot(v) == 0.0 <==> v == Zero
  {
    SquareNonneg(v.x);
    SquareNonneg(v.y);
  }

  /** Both the dot and the cross product vanish only when one of the vectors is zero. */
  lemma DotCrossBothZero(v: Vector2D, w: Vector2D)
    ensures v.Dot(w) == 0.0 && v.Cross(w) == 0.0 <==> v == Zero || w == Zero
  {
    if v.Dot(w) == 0.0 && v.Cross(w) == 0.0 {
      Lagrange(v, w);
      SquaredLengthZero(v);
      SquaredLengthZero(w);
      ProductZero(v.Dot(v), w.Dot(w));
    }
  }

  /** The magnitude is the non-negative root of the squared length. */
  lemma MagnitudeLaws(math: MathLib, v: Vector2D)
    requires SqrtLaws(math)
    ensures 0.0 <= v.Magnitude(math)
    ensures v.Magnitude(math) * v.Magnitude(math) == v.Dot(v)
    ensures v.Magnitude(math) == 0.0 <==> v == Zero
  {
    SquaredLengthZero(v);
    SqrtAt(math, v.Dot(v));
  }

  /** A non-zero vector normalizes to a unit vector pointing the same way. */
  lemma NormalizeUnit(math: MathLib, v: Vector2D)
    requires SqrtLaws(math)
    ensures v == Zero <==> v.Normalize(math) == Zero
    ensures v != Zero ==> v.Normalize(math).Dot(v.Normalize(math)) == 1.0
    ensures v != Zero ==> 0.0 < v.Dot(v.Normalize(math))
    ensures v != Zero ==> v.Normalize(math).Scale(v.Magnitude(math)) == v
  {
    MagnitudeLaws(math, v);
    if v != Zero {
      var m := v.Magnitude(math);
      assert v.Normalize(math) == Vector2D(v.x / m, v.y / m);
      UnitComponents(v.x, v.y, m);
      DivMul(v.x, m);
      DivMul(v.y, m);
    }
  }

  /** The distance is symmetric, non-negative, and zero only between equal points. */
  lemma DistanceLaws(math: MathLib, v: Vector2D, w: Vector2D)
    ensures v.DistanceTo(math, w) == w.DistanceTo(math, v)
    ensures SqrtLaws(math) ==> 0.0 <= v.DistanceTo(math, w)
    ensures SqrtLaws(math) ==> v.DistanceTo(math, w) * v.DistanceTo(math, w) == v.Subtract(w).Dot(v.Subtract(w))
    ensures SqrtLaws(math) ==> (v.DistanceTo(math, w) == 0.0 <==> v == w)
  {
    var d, e := v.Subtract(w), w.Subtract(v);
    NegSquare(d.x, e.x);
    NegSquare(d.y, e.y);
    Congruent(math.sqrt, d.Dot(d), e.Dot(e));
    if SqrtLaws(math) {
      MagnitudeLaws(math, d);
    }
  }

  /** A rotation preserves length. */
  lemma RotateIsometry(math: MathLib, v: Vector2D, angle: real)
    requires TrigLaws(math)
    ensures v.Rotate(math, angle).Dot(v.Rotate(math, angle)) == v.Dot(v)
  {
    var c, s := math.cos(angle), math.sin(angle);
    var r := v.Rotate(math, angle);
    assert c * c + s * s == 1.0;
    calc {
      r.Dot(r);
      (c * v.x - s * v.y) * (c * v.x - s * v.y) + (s * v.x + c * v.y) * (s * v.x + c * v.y);
      (c * c + s * s) * (v.x * v.x) + (c * c + s * s) * (v.y * v.y);
      v.Dot(v);
    }
  }

  /** Rotating by zero changes nothing. */
  lemma RotateByZero(math: MathLib, v: Vector2D)
    requires TrigLaws(math)
    ensures v.Rotate(math, 0.0) == v
  {
  }

  /** Rotating back by the opposite angle undoes a rotation. */
  lemma RotateInverse(math: MathLib, v: Vector2D, angle: real)
    requires TrigLaws(math) && TrigParityAt(math, angle)
    ensures v.Rotate(math, angle).Rotate(math, -angle) == v
  {
    var c, s := math.cos(angle), math.sin(angle);
    var r := v.Rotate(math, angle);
    assert c * c + s * s == 1.0;
    calc {
      c * r.x - (-s) * r.y;
      c * (c * v.x - s * v.y) + s * (s * v.x + c * v.y);
      (c * c + s * s) * v.x;
      v.x;
    }
    calc {
      (-s) * r.x + c * r.y;
      -s * (c * v.x - s * v.y) + c * (s * v.x + c * v.y);
      (c * c + s * s) * v.y;
      v.y;
    }
  }

  /** The closed half-turn test on the signed angle is the sign of the dot product. */
  lemma SignedAngleWithinQuarter(math: MathLib, v: Vector2D, w: Vector2D)
    requires Atan2Laws(math)
    ensures Abs(v.SignedAngleTo(math, w)) <= math.pi / 2.0 <==> 0.0 <= v.Dot(w)
    ensures Abs(v.SignedAngleTo(math, w)) < math.pi / 2.0 <==> 0.0 < v.Dot(w) || v == Zero || w == Zero
  {
    Atan2ClosedHalfPlane(math, v.Cross(w), v.Dot(w));
    Atan2OpenHalfPlane(math, v.Cross(w), v.Dot(w));
    DotCrossBothZero(v, w);
  }

  /** Cauchy-Schwarz: over exact reals the clamp in AngleWith never changes its argument. */
  lemma AngleWithClampInactive(math: MathLib, v: Vector2D, w: Vector2D)
    requires SqrtLaws(math)
    ensures v.AngleWith(math, w).None? <==> v == Zero || w == Zero
    ensures w.Magnitude(math) != 0.0 && v.Magnitude(math) != 0.0 ==>
      v.AngleWith(math, w) == Some(math.acos(Cosine(v.Dot(w), w.Magnitude(math), v.Magnitude(math))))
  {
    MagnitudeLaws(math, v);
    MagnitudeLaws(math, w);
    var n1, n2 := w.Magnitude(math), v.Magnitude(math);
    if n1 != 0.0 && n2 != 0.0 {
      MulPos(n1, n2);
      Lagrange(v, w);
      SquareNonneg(v.Cross(w));
      assert (n1 * n2) * (n1 * n2) == v.Dot(v) * w.Dot(w);
      UnitRatio(v.Dot(w), n1 * n2, Cosine(v.Dot(w), n1, n2));
      assert ClampUnit(Cosine(v.Dot(w), n1, n2)) == Cosine(v.Dot(w), n1, n2);
    }
  }
}
